=== FILE: README.md ===
# Arc Forge access control and board mutations in Dafny

Arc Forge is a Kanban board with five fixed columns (backlog, requirements,
in progress, review, complete). This project models its two cores.

**Access control.**
- The password check against a configured bcrypt hash.
- The in-memory session store: create, verify with lazy delete, and the periodic sweep.
- The static API-key check.
- The `isAuthorized` gate in front of the add, move and update routes.
- The login endpoint: client identification, the per-client fixed-window limiter on failed attempts, and the request handler as a transition over the rate table and the session table.

**Board mutations.**
- The three write routes: add, move and update.
- The board view's drag-and-drop reducer and its header counters.
- The add-task form's normalisation.
- The shared vocabulary of priorities, column ids and the column configuration.

Everything the code reads from outside comes in as a parameter:

| outside input | parameter |
|---|---|
| the clock | `now` in milliseconds, `today` as a date string |
| the random session token | `token` |
| `bcrypt.compare` | the oracle `compare` |
| `getBoard()` | `stored: Option<Board>` (`None` when it yields null) |
| `saveBoard()` | the board handed over (`written`), plus the boolean `saved` it reports |

Each stateful map (sessions, rate table) is a value: an operation returns the new map.

Request bodies are JSON values (`Json.Value`). The model implements the JavaScript operations the routes apply to them: truthiness, `===`, property reads, object spread and destructuring. It also implements the string operations the code uses, following ECMA-262: `trim`, `split`, `startsWith`, `replace`, `parseInt` and decimal rendering.

Module layout:

| module | file | models |
|---|---|---|
| `Wrappers` | wrappers.dfy | `Option` |
| `JsString` | jsstring.dfy | the JavaScript string primitives |
| `Json` | json.dfy | JSON values and the operations on them |
| `Http` | http.dfy | the request headers and the parsed body |
| `Types` | types.dfy | lib/types.ts |
| `Auth` | auth.dfy | lib/auth.ts |
| `Login` | login.dfy | app/api/auth/login/route.ts |
| `BoardRoutes` | board.dfy | the lookups, filters and counts the board routes and the view share |
| `BoardAdd` | board_add.dfy | app/api/board/add/route.ts |
| `BoardMove` | board_move.dfy | app/api/board/move/route.ts |
| `BoardUpdate` | board_update.dfy | app/api/board/update/route.ts |
| `Kanban` | kanban.dfy | `handleDrop` and the counters of components/KanbanBoard.tsx |
| `AddTaskModal` | add_task_modal.dfy | `handleSubmit` of components/AddTaskModal.tsx |

Behaviours of the code that the model keeps as written:
- **`isAuthorized` changes state.** It consults `verifySessionToken`, which deletes an expired session. `Auth.IsAuthorized` therefore returns the new store as well as the verdict.
- **The sixth wrong login is refused.** The limiter is checked before an attempt is recorded, so five wrong passwords in one window are each answered 401 and the sixth request is answered 429 (`Login.SixthRequestRefused`).
- **A live session is not extended.** It is still valid at the exact expiry instant, because the code tests `expires < now`.
- **Move drops duplicates.** The move route filters every task carrying the id out of the source column but re-adds only the one it found.
- **A missing target column loses the task.** A drop onto a column the board lacks removes the task and adds it nowhere.
- **A non-string id blocks id generation.** A non-string, non-null id on any stored task makes every later add without an id fail with 500, because `replace` throws.

## Model

| member | source | states |
|---|---|---|
| Types.PriorityNamed | lib/types.ts:1 | a string denotes a priority exactly when it is "high", "medium" or "low", and then that priority's name is the string |
| Types.ColumnIdNamed | lib/types.ts:2 | a string denotes a column id exactly when it is one of the five names, and then that id's name is the string |
| Types.NamesRoundTrip | lib/types.ts:1-2 | reading back the name of any priority or column id gives that value, so the unions have exactly three and five distinct members |
| Types.ConfigMatchesOrder | lib/types.ts:24-32 | the column configuration lists each column id exactly once, in the order of `COLUMN_ORDER` |
| Types.FindConfig | lib/types.ts:24-30 | a configuration found for a name carries that name; none is found only if no entry carries it |
| Types.ConfigLookupTotal | lib/types.ts:24-32 | looking up the configuration of any column id succeeds and yields the entry at the id's position |
| Types.ColumnIndex | lib/types.ts:32 | every column id has a position in `COLUMN_ORDER` |
| Auth.VerifyPassword | lib/auth.ts:21-24 | the password is accepted exactly when a hash is configured and the oracle accepts the pair |
| Auth.PasswordFailsClosed | lib/auth.ts:21-24 | with no hash configured the answer is false whatever the oracle would say |
| Auth.CreateSession | lib/auth.ts:26-31 | the token gets expiry `now` plus 24 hours; every other entry is kept unchanged; the store grows by one for a new token |
| Auth.VerifySession | lib/auth.ts:33-41 | valid exactly when the token is present with expiry not before `now`; an unknown token leaves the store unchanged; an expired token is deleted and nothing else; a live one leaves the store unchanged |
| Auth.ExpiredStaysRejected | lib/auth.ts:36-39 | an expired token is rejected, and checking it again later is rejected with no further change |
| Auth.SessionLifetime | lib/auth.ts:26-40 | a new session is valid up to and including its expiry instant and invalid afterwards |
| Auth.Sweep | lib/auth.ts:12-19 | the sweep keeps exactly the entries that are still live, with unchanged expiries |
| Auth.SweepPreservesVerdicts | lib/auth.ts:12-19 | sweeping never changes a token's verdict at the sweep time or later |
| Auth.Mismatches | lib/auth.ts:47 | the count of differing positions is zero exactly when the keys are equal |
| Auth.TimingSafeEqual | lib/auth.ts:47 | for keys of equal length, the comparison accepts exactly when the keys are equal |
| Auth.VerifyApiKey | lib/auth.ts:43-48 | a key is accepted exactly when a key is configured and the given key equals it |
| Auth.BearerKey | lib/auth.ts:52-54 | a key is extracted exactly when the header starts with "Bearer ", and the header is that prefix followed by the key |
| Auth.IsAuthorized | lib/auth.ts:50-63 | authorized exactly when the bearer key is accepted or a non-empty session header names a live session; the store changes only through the session check |
| Auth.FailsClosedWhenUnconfigured | lib/auth.ts:50-63 | with no API key and no sessions every request is denied and the store stays empty |
| Auth.EitherCredentialSuffices | lib/auth.ts:50-63 | the configured key alone, or a live session token alone, authorizes |
| Login.FirstField | app/api/auth/login/route.ts:10 | the first comma-separated field is a comma-free prefix of the header, ended by a comma or by the end of the header |
| Login.ClientIp | app/api/auth/login/route.ts:9-13 | the client id is the trimmed first forwarded field when non-empty, else the real-ip header when non-empty, else "unknown"; it is never empty |
| Login.RecordAttempt | app/api/auth/login/route.ts:26-35 | an absent or expired record becomes one attempt in a fresh 15-minute window; a live one gains one attempt in the same window; no other client's record changes |
| Login.AttemptsShareWindow | app/api/auth/login/route.ts:26-35 | attempts made while the first attempt's window runs all land in that window |
| Login.LimitedAfterFive | app/api/auth/login/route.ts:15-35 | within one window, a client is limited exactly when at least five attempts have been recorded |
| Login.IsRateLimited | app/api/auth/login/route.ts:15-24 | a limited client has a record holding at least five attempts; limited exactly when one more recorded attempt would stay in the current window and take it past five |
| Login.WindowExpiry | app/api/auth/login/route.ts:19-31 | after its window ends a client is not limited, and its next attempt opens a fresh window with count one |
| Login.SubmittedPassword | app/api/auth/login/route.ts:48-51 | no password outcome exactly when the body is unparseable or JSON null; a submitted password is the body object's own non-empty string `password` entry |
| Login.PasswordText | app/api/auth/login/route.ts:49-51 | a password is taken exactly when the body's `password` is a non-empty string |
| Login.Post | app/api/auth/login/route.ts:37-83 | 429 exactly when the client is limited, with no change; 400 with no attempt for an unreadable body; 400 or 401 recording exactly one attempt for a missing or wrong password, a wrong password answered 401 with only that attempt added; success exactly when the oracle accepts, adding one 24-hour session and no attempt |
| Login.LimitedIgnoresPassword | app/api/auth/login/route.ts:41-46 | a limited client gets 429 whatever the body and the oracle |
| Login.FailuresAreCounted | app/api/auth/login/route.ts:51-66 | up to five wrong passwords in one window are each answered 401 and each counted exactly once |
| Login.SixthRequestRefused | app/api/auth/login/route.ts:37-66 | after five wrong passwords in one window the next request in that window is answered 429 |
| Login.LoginThenAuthorized | app/api/auth/login/route.ts:69-76 | the token of a successful login authorizes requests that present it until the session expires |
| BoardRoutes.Destructurable | app/api/board/add/route.ts:32 | a body can be destructured exactly when it parsed and is not null |
| BoardRoutes.FindColumn | app/api/board/add/route.ts:50 | the index found is the first column whose id is strictly equal to the key; none only if no column matches |
| BoardRoutes.FindTask | app/api/board/update/route.ts:46 | the index found is the first task with the id; none only if no task has it |
| BoardRoutes.Locate | app/api/board/move/route.ts:45-56 | the position found is the first column holding the id and the first such task in it; none only if no task on the board has the id |
| BoardRoutes.InAllTasks | app/api/board/add/route.ts:60 | every task of every column is in the flattened list |
| BoardRoutes.TaskCountFlattens | components/KanbanBoard.tsx:89 | the sum of the column lengths is the length of the flattened list |
| BoardRoutes.Matches | app/api/board/move/route.ts:75-77 | the number of tasks with the id is zero exactly when no task has it |
| BoardRoutes.CountId | app/api/board/add/route.ts:76-78 | the board-wide number of tasks with the id is at most the task count and is zero exactly when the id is on no task |
| BoardRoutes.OnBoardCons | app/api/board/add/route.ts:76-78 | a board holds an id exactly when its first column or the remaining columns do |
| BoardRoutes.WithTasks | app/api/board/move/route.ts:75 | replacing one column's tasks keeps that column's id, title and emoji and every other column |
| BoardRoutes.TaskCountWithTasks | app/api/board/add/route.ts:87 | replacing one column's tasks changes the task count by the difference in length |
| BoardRoutes.CountIdWithTasks | app/api/board/move/route.ts:75-83 | replacing one column's tasks changes an id's count by the difference in matches |
| BoardRoutes.RemoveId | app/api/board/move/route.ts:75-77 | the filter keeps exactly the tasks without the id and shrinks the list by the number of matches |
| BoardRoutes.RemoveIdDistributes | app/api/board/move/route.ts:75-77 | filtering works piecewise, so the surviving tasks keep their relative order |
| BoardRoutes.RemoveIdAbsent | app/api/board/move/route.ts:75-77 | filtering a list without the id changes nothing |
| BoardRoutes.RemoveIdUnique | app/api/board/move/route.ts:75-77 | when the id occurs once, filtering removes exactly that element |
| BoardRoutes.MatchesSplit | app/api/board/move/route.ts:75-77 | matches of a concatenation add up |
| BoardRoutes.MatchesOneUnique | app/api/board/move/route.ts:75-77 | a list with a single match has it at one index only: every other position lacks the id |
| BoardRoutes.Touch | app/api/board/move/route.ts:80 | stamping `updatedAt` changes only that field and never which ids the task answers to |
| BoardRoutes.RemoveIdIdempotent | app/api/board/move/route.ts:75-77 | filtering twice is filtering once |
| BoardRoutes.AppendMatching | app/api/board/move/route.ts:75-83 | appending a task with the id adds one match and nothing the filter keeps |
| BoardRoutes.ColumnWithinCount | components/KanbanBoard.tsx:89-91 | one column holds no more tasks than the board |
| BoardRoutes.TwoColumnsWithinCount | components/KanbanBoard.tsx:89-91 | two different columns together hold no more tasks than the board |
| BoardAdd.IdNumberOf | app/api/board/add/route.ts:62 | an id throws exactly when it is present, not null and not a string; an absent or null id counts as 0 |
| BoardAdd.MaxId | app/api/board/add/route.ts:61-64 | the fold fails exactly when some id throws; otherwise its result is at least 0, bounds every parsed number, and is 0 or one of them |
| BoardAdd.MaxIdNumber | app/api/board/add/route.ts:60-64 | the largest parsed id number of the tasks (0 or one of those numbers, none exceeding it), failing exactly when some id throws |
| BoardAdd.GeneratedId | app/api/board/add/route.ts:59-66 | the id is `task-` followed by one more than the largest parsed id number on the board, and no task already on the board carries it |
| BoardAdd.GeneratedIdIsFresh | app/api/board/add/route.ts:59-66 | "task-" followed by the maximum plus one is on no task, since every parsed number is at most the maximum |
| BoardAdd.IdNumberOfGenerated | app/api/board/add/route.ts:62-65 | the number parsed back from a generated id is the number it was made from |
| BoardAdd.MaxIdBounds | app/api/board/add/route.ts:61-64 | no task's parsed id number exceeds the maximum |
| BoardAdd.Prepare | app/api/board/add/route.ts:65-73 | the stored task has the chosen id; `createdAt`, `priority` and `tags` are kept when truthy and otherwise today, "medium" and []; `updatedAt` is today; every other field is kept |
| BoardAdd.Insert | app/api/board/add/route.ts:58-87 | id generation fails only without a supplied id; a duplicate is reported only for a supplied id already on the board; a successful insert appends the prepared task last in the target column, leaves every other column unchanged, and raises the task count by one |
| BoardAdd.ParseRequest | app/api/board/add/route.ts:32 | the column defaults to "backlog" only when the property is absent |
| BoardAdd.TitleOnlyOnObjects | app/api/board/add/route.ts:34 | only an object can have a `title` property |
| BoardAdd.Post | app/api/board/add/route.ts:26-111 | 401 exactly when unauthorized, with no write; 400 with no write for a missing task or title; 500 with no write for an unreadable body or a missing board; for an admitted request: 404 with no write exactly when no column has the requested id, 500 with no write when an id number throws, 409 with no write for a duplicate id, otherwise the stored board with the task inserted is written and answered with the id when the save succeeds, 500 when it fails |
| BoardAdd.UnauthorizedIgnoresBoard | app/api/board/add/route.ts:27-29 | an unauthorized request has the same outcome whatever the body and the stored board |
| BoardMove.ParseRequest | app/api/board/move/route.ts:28 | only an object body supplies `taskId` and `toColumn`, each exactly its own entry when present; any other non-null body leaves both absent |
| BoardMove.Move | app/api/board/move/route.ts:74-83 | columns other than source and target are unchanged; every column keeps its id, title and emoji; when the columns differ the source keeps exactly its tasks without the id and the target gets the found task, stamped with today, appended |
| BoardMove.MoveKeepsOthers | app/api/board/move/route.ts:75-83 | in every column the tasks without the id are exactly those that were there, in the same order |
| BoardMove.MoveWithinColumn | app/api/board/move/route.ts:75-83 | moving a task into its own column filters the column and puts the stamped task last |
| BoardMove.MoveCounts | app/api/board/move/route.ts:75-83 | the board loses the source column's matches and gains one task with the id |
| BoardMove.MoveUniqueTask | app/api/board/move/route.ts:75-83 | with the id on a single task, the task count is kept and the id is held once, by the target's last task, dated today |
| BoardMove.CountIdAtLeastMatches | app/api/board/move/route.ts:75-77 | a column's matches are part of the board's |
| BoardMove.Post | app/api/board/move/route.ts:22-106 | 401 exactly when unauthorized, with no write; 400 with no write for a missing field; 500 with no write for an unreadable body or a missing board; for an admitted request: 404 with no write when the task or the target column is unknown, otherwise the stored board with the located task moved is written and answered 200 when the save succeeds, 500 when it fails |
| BoardMove.WrittenMoveKeepsTasks | app/api/board/move/route.ts:74-86 | on a board with unique ids, a written move keeps the number of tasks |
| BoardUpdate.Merge | app/api/board/update/route.ts:49-54 | `id` and `createdAt` stay as they were; `updatedAt` is today; any other field takes the update's value when it has one and is kept otherwise |
| BoardUpdate.MergeKeepsId | app/api/board/update/route.ts:49-54 | a merged task answers to exactly the ids it answered to before |
| BoardUpdate.MergeIdempotent | app/api/board/update/route.ts:49-54 | applying the same update twice on one day equals applying it once |
| BoardUpdate.ParseRequest | app/api/board/update/route.ts:26 | only an object body supplies `taskId` and `updates`, each exactly its own entry when present; any other non-null body leaves both absent |
| BoardUpdate.Apply | app/api/board/update/route.ts:50-54 | only the task at the located position changes, and it becomes the merge; the column's other tasks and the other columns stay |
| BoardUpdate.ApplyKeepsCounts | app/api/board/update/route.ts:44-57 | an update keeps the task count and every id's count |
| BoardUpdate.MatchesPointwise | app/api/board/update/route.ts:44-57 | lists whose tasks answer to the same ids have equal matches |
| BoardUpdate.Post | app/api/board/update/route.ts:20-88 | 401 exactly when unauthorized, with no write; 400 with no write for a missing field; 500 with no write for an unreadable body or a missing board; for an admitted request: 404 with no write when no task has the id, otherwise the stored board with the first matching task merged is written and answered 200 when the save succeeds, 500 when it fails |
| BoardUpdate.WrittenUpdateKeepsIdentity | app/api/board/update/route.ts:44-68 | after a written update the id is found at the same place and the task count is unchanged |
| BoardUpdate.LocateAfterApply | app/api/board/update/route.ts:44-57 | merging a task never changes where any id is first found |
| BoardUpdate.LocatePointwise | app/api/board/update/route.ts:45-47 | boards of the same shape whose tasks answer to the same ids locate every id at the same place |
| BoardUpdate.FindTaskPointwise | app/api/board/update/route.ts:46 | lists whose tasks answer to the same ids find every id at the same index |
| Kanban.LastWith | components/KanbanBoard.tsx:68-72 | the captured task is the last with the id; none only if no task has it |
| Kanban.Strip | components/KanbanBoard.tsx:66-75 | every column becomes its tasks without the id; the board loses exactly the tasks with the id and none with it is left |
| Kanban.AppendWhere | components/KanbanBoard.tsx:79-81 | every column named like the target gets the task appended and the others are unchanged, so the board gains one task per such column |
| Kanban.Named | components/KanbanBoard.tsx:79-81 | the number of columns with a name is zero exactly when no column has it |
| Kanban.Drop | components/KanbanBoard.tsx:62-82 | with no dragged id, or an id on no task, the board is unchanged; otherwise the columns keep their ids, titles and emoji (what lands where is `Kanban.DropMovesTask`) |
| Kanban.DroppedTask | components/KanbanBoard.tsx:64-77 | a drop of an id on the board carries a task with that id |
| Kanban.DropMovesTask | components/KanbanBoard.tsx:64-82 | every column becomes its tasks without the id, followed, in each column whose id is the target, by the last task with the id with all its fields kept and `updatedAt` set to today |
| Kanban.DropKeepsOthers | components/KanbanBoard.tsx:66-81 | in every column the tasks without the dragged id are exactly those that were there, in order |
| Kanban.DropCounts | components/KanbanBoard.tsx:64-82 | a drop removes every task with the id and adds one to each column named like the target, which is then the id's count |
| Kanban.DropUniqueTask | components/KanbanBoard.tsx:64-82 | with the id on one task and one target column, the count is kept and the id is held once, by the target's last task, which is that very task with `updatedAt` set to today |
| Kanban.DropLandsLast | components/KanbanBoard.tsx:68-81 | with the id on one task, each column whose id is the target ends with that task, `updatedAt` set to today |
| Kanban.DropOfUnique | components/KanbanBoard.tsx:64-82 | with the id on one task, a drop strips the id and appends that task, stamped today, to the columns named like the target |
| Kanban.UniqueTaskCarried | components/KanbanBoard.tsx:68-72 | with the id on one task, that task is the one the filter captures |
| Kanban.OnlyHolder | components/KanbanBoard.tsx:66-75 | on a board holding the id once, the task holding it is the only task of the flattened board with the id |
| Kanban.DropOnMissingColumnLosesTask | components/KanbanBoard.tsx:79-81 | dropping on a target no column is named like removes the id from the board |
| Kanban.OnBoardAllTasks | components/KanbanBoard.tsx:66-75 | some column holds the id exactly when the flattened board does |
| Kanban.HoldsConcat | components/KanbanBoard.tsx:66-75 | a concatenation holds an id exactly when one of its parts does |
| Kanban.AppendWhereCounts | components/KanbanBoard.tsx:79-81 | appending a task with the id to the named columns adds one match of the id per such column |
| Kanban.NamedSameIds | components/KanbanBoard.tsx:79-81 | boards with the same column ids have the same number of columns with a name |
| Kanban.ColumnSize | components/KanbanBoard.tsx:90-91 | the size is the first column with the name's length, or 0 when there is none |
| Kanban.HeaderCounters | components/KanbanBoard.tsx:89-91 | the total is the task count, and completed plus in-progress never exceed it |
| Kanban.CountersWithinTotal | components/KanbanBoard.tsx:89-91 | the complete and in-progress column sizes together are at most the task count |
| AddTaskModal.InitialForm | components/AddTaskModal.tsx:21-30 | the form opens with empty fields, medium priority and the target column |
| AddTaskModal.TrimAll | components/AddTaskModal.tsx:41 | one piece per piece, each the trim of its piece, so none keeps whitespace at either end, and a piece comes out empty exactly when it was blank |
| AddTaskModal.DropEmpty | components/AddTaskModal.tsx:41 | exactly the non-empty strings are kept, each as often as it occurs |
| AddTaskModal.DropEmptyConcat | components/AddTaskModal.tsx:41 | filtering a concatenation filters each part, so the kept strings stay in order |
| AddTaskModal.ParseTags | components/AddTaskModal.tsx:41 | every tag is non-empty, has no surrounding whitespace and no comma |
| AddTaskModal.ParseTagsSingle | components/AddTaskModal.tsx:41 | a text without a comma yields its trim as the one tag, or no tag when it is blank |
| AddTaskModal.ParseTagsCons | components/AddTaskModal.tsx:41 | the first comma-separated field contributes its tag first and the rest of the text the rest, which with the single-field case fixes the tags of every text |
| AddTaskModal.ParsedTagsAreTidy | components/AddTaskModal.tsx:41 | every kept piece is non-empty, trimmed and comma-free |
| AddTaskModal.TagsRoundTrip | components/AddTaskModal.tsx:41 | clean tags typed as a comma-separated list parse back to themselves |
| AddTaskModal.ParseTidyPieces | components/AddTaskModal.tsx:41 | clean pieces pass trimming and filtering unchanged |
| AddTaskModal.TrimAllOfTrimmed | components/AddTaskModal.tsx:41 | pieces already trimmed are unchanged |
| AddTaskModal.DropEmptyOfFull | components/AddTaskModal.tsx:41 | with no empty string the filter changes nothing |
| AddTaskModal.Optional | components/AddTaskModal.tsx:43-44 | the field is absent exactly when it is blank, and otherwise it is the non-empty trimmed text |
| AddTaskModal.Submit | components/AddTaskModal.tsx:32-49 | nothing is submitted exactly when the title is blank; otherwise the title and description are the trimmed inputs, the tags are the parsed tag text, the estimate is the typed text when there is one, monetization and requirements are their trimmed text or absent when blank, and the priority and column are as chosen |
| AddTaskModal.SubmitRoundTrip | components/AddTaskModal.tsx:32-49 | a form filled with a clean task submits exactly that task and column |
| AddTaskModal.CleanOfTidy | components/AddTaskModal.tsx:36-46 | cleaning up the fields of a form filled with a clean task gives back that task |
| AddTaskModal.OptionalOfTidy | components/AddTaskModal.tsx:43-44 | an absent or clean optional field survives the clean-up |
| AddTaskModal.TrimOfTrimmed | components/AddTaskModal.tsx:38 | trimming a trimmed string changes nothing |
| AddTaskModal.BlankFormSubmitsNothing | components/AddTaskModal.tsx:21-34 | submitting the form as it opens submits nothing |
| JsString.TrimStart | app/api/auth/login/route.ts:10 | only whitespace is dropped, from the front, up to the first non-whitespace character; the result is empty exactly for all-whitespace input |
| JsString.TrimEnd | app/api/auth/login/route.ts:10 | only whitespace is dropped, from the back, up to the last non-whitespace character; the result is empty exactly for all-whitespace input |
| JsString.Trim | app/api/auth/login/route.ts:10 | the result has no whitespace at either end and is empty exactly for all-whitespace input |
| JsString.TrimStartSkips | app/api/auth/login/route.ts:10 | leading whitespace does not affect the result of dropping it |
| JsString.TrimEndSkips | app/api/auth/login/route.ts:10 | trailing whitespace does not affect the result of dropping it |
| JsString.TrimSplits | app/api/auth/login/route.ts:10 | every string is whitespace, then its trim, then whitespace |
| JsString.TrimInfix | app/api/auth/login/route.ts:10 | trimming introduces no character the input lacks |
| JsString.TrimUnique | components/AddTaskModal.tsx:38 | any split into whitespace, a trimmed middle and whitespace has that middle as the trim |
| JsString.TrimIdempotent | components/AddTaskModal.tsx:38 | trimming twice is trimming once |
| JsString.Split | components/AddTaskModal.tsx:41 | there is at least one piece and no piece contains the separator |
| JsString.JoinSplit | components/AddTaskModal.tsx:41 | joining the pieces with the separator gives back the string |
| JsString.SplitJoin | components/AddTaskModal.tsx:41 | splitting separator-free pieces joined by the separator gives back the pieces |
| JsString.SplitWithoutSeparator | components/AddTaskModal.tsx:41 | a string without the separator is one piece |
| JsString.SplitAtSeparator | components/AddTaskModal.tsx:41 | a separator splits off the text before it as the first piece |
| JsString.SplitFirstPiece | app/api/auth/login/route.ts:10 | the first piece is a prefix followed by the separator or the end |
| JsString.IndexOfFrom | app/api/board/add/route.ts:62 | the index found is the first occurrence at or after the start; none only if there is no occurrence there |
| JsString.RemoveFirst | app/api/board/add/route.ts:62 | the result is the string without the first (least-index) occurrence of the pattern, hence shorter by the pattern; a string without the pattern is unchanged |
| JsString.RemoveFirstOfPrefixed | app/api/board/add/route.ts:62 | removing the prefix from prefix + d gives d |
| JsString.DigitPrefix | app/api/board/add/route.ts:62 | the longest prefix of digits in the radix |
| JsString.DigitPrefixWhole | app/api/board/add/route.ts:62 | a string of decimal digits is its own digit prefix |
| JsString.DecimalChar | app/api/board/add/route.ts:65 | the digit character has the digit's value |
| JsString.NatToDecimal | app/api/board/add/route.ts:65 | the rendering is non-empty decimal digits, with a leading zero only for 0 |
| JsString.DecimalValue | app/api/board/add/route.ts:65 | reading a rendered number back gives the number |
| JsString.DecimalInjective | app/api/board/add/route.ts:65 | different numbers render differently |
| JsString.ParseIntOfDecimal | app/api/board/add/route.ts:62-65 | `parseInt` of a rendered number gives the number |
| JsString.ParseInt | app/api/board/add/route.ts:62 | blank text is `NaN`; a negative result needs a leading minus; text opening with a decimal digit, other than a `0x` prefix, is a non-negative number (with `ParseIntOfDecimal` as its inverse on rendered numbers) |
| Json.StrictEqualsStr | app/api/board/move/route.ts:50 | a value is strictly equal to a string exactly when it is that string |
| Json.Member | app/api/board/update/route.ts:26 | reading a property of an object yields its entry when present; booleans and numbers have no data properties |
| Json.SpreadEntries | app/api/board/update/route.ts:49 | spreading an object copies its entries; arrays and strings give one entry per index; other primitives give none |
| Json.IndexEntries | app/api/board/update/route.ts:49 | every key of the index entries is a canonical index below the length |
| Json.IndexEntriesAt | app/api/board/update/route.ts:49 | each canonical index is a key holding that element |
| Json.IndexEntriesSize | app/api/board/update/route.ts:49 | there is exactly one entry per element |

## Left out

- Auth.VerifyApiKey: compares keys as strings of code points. The code checks `key.length` in UTF-16 code units and then compares the UTF-8 encodings with `crypto.timingSafeEqual`, which throws when those encodings differ in byte length. That happens only for keys of equal UTF-16 length but different UTF-8 length, such as "é" against "e"; keys whose UTF-8 lengths agree, such as "é" against "è", are compared and answered as here. The throw is not modelled.
- Auth.TimingSafeEqual: models only the functional equality. That the comparison takes the same time whatever the keys cannot be stated here.
- BoardAdd.GeneratedId: id numbers are unbounded integers. JavaScript numbers lose precision above 2^53, and then a template literal renders them in exponent form; neither effect is modelled.
- JsString.ParseInt: yields an exact integer. Rounding of very long digit strings to the nearest double is not modelled.
- Login.Post: `bcrypt.compare` is an oracle that always answers. A malformed hash that makes it throw (caught and answered 400) is not modelled.
- Login.Post: one request reads the clock once, as `now`. The code reads `Date.now()` separately in the limiter check and in the attempt record.
- Kanban.Drop: only the board transformation is modelled. The drag state (`draggedTask`, `dragOverCol`) and the localStorage persistence (`loadBoard`, `saveBoard`) are not.
- AddTaskModal.Submit: `estimatedHours` is handed over as the typed text. Its conversion by `parseFloat` (floating point) is not modelled.
- AddTaskModal.Submit: the `onClose()` call after handing over the task, which closes the dialog, is not modelled.
- Session tokens are the parameter `token`. The randomness of `crypto.randomBytes` and the uniqueness of its output are not modelled; creating a session with a token already in the store replaces that entry.
- The one-minute scheduling of the sweep is not modelled. The sweep is an operation taking `now`.
- Concurrency is not modelled. Concurrent requests can interleave on the in-memory maps and on the database; each request is treated as one atomic transition.
- lib/db.ts (the Neon SQL store) is not part of this model. It is the pair of inputs `stored` and `saved`.
- app/api/board/route.ts is not part of this model. It reads and saves the whole board without calling `isAuthorized`, so the authorization properties above hold only for the three write routes modelled here.
- A stored board is assumed to be a list of columns with string ids whose tasks are objects. A malformed stored board, which would make the routes throw, is not modelled.
- Strings are sequences of Unicode scalar values, so lone UTF-16 surrogates cannot be represented. Lengths and indexes count code points, where JavaScript counts UTF-16 code units. For text outside the Basic Multilingual Plane this changes `key.length` in `verifyApiKey` (which only decides whether the comparison above is reached) and the index keys the update route's object spread gives a string update.
- `AUTH_SECRET` is read but used by no code path.
- Response bodies and error messages are not modelled: a reply is its kind and status code, plus the new task's id for a successful add.
- Not modelled: rendering (TaskCard, TaskModal, UnlockModal, the layout), the client session plumbing in AuthContext, and the hash-generation script.

=== FILE: add_task_modal.dfy ===
/** The new-task form (components/AddTaskModal.tsx): its initial state and
    `handleSubmit`, which refuses a blank title and otherwise hands the
    cleaned-up task and the chosen column to the board. */
module AddTaskModal {
  import opened Wrappers
  import JsString
  import opened Types
  import Seqs

  /** The form's state: every field is the text typed so far, except the
      priority and the column, which come from selects. */
  datatype Form = Form(
    title: string,
    description: string,
    priority: Priority,
    tags: string,
    estimatedHours: string,
    monetization: string,
    requirements: string,
    column: ColumnId)

  /** The form as it opens on a column: empty fields, medium priority. */
  function InitialForm(target: ColumnId): (f: Form)
    ensures f.column == target && f.priority == Medium
    ensures f.title == [] && f.description == [] && f.tags == []
    ensures f.estimatedHours == [] && f.monetization == [] && f.requirements == []
  {
    Form("", "", Medium, "", "", "", "", target)
  }

  /** The task handed to the board. `estimatedHours` is the text the user
      typed, when there is any; its conversion by `parseFloat` is not part
      of this model. */
  datatype NewTask = NewTask(
    title: string,
    description: string,
    priority: Priority,
    tags: seq<string>,
    estimatedHours: Option<string>,
    monetization: Option<string>,
    requirements: Option<string>)

  datatype Submission = Submission(task: NewTask, column: ColumnId)

  // -----------------------------------------------------------------------
  // Field clean-up

  /** A tag is non-empty, carries no surrounding whitespace and no comma. */
  predicate TidyTag(t: string) {
    t != [] && JsString.IsTrimmed(t) && ',' !in t
  }

  /** Each piece trimmed, in order: no piece keeps whitespace at either
      end, and a piece is emptied exactly when it was blank. */
  function TrimAll(parts: seq<string>): (ts: seq<string>)
    ensures |ts| == |parts|
    ensures forall i :: 0 <= i < |parts| ==> ts[i] == JsString.Trim(parts[i])
    ensures forall i :: 0 <= i < |parts| ==> JsString.IsTrimmed(ts[i]) && (ts[i] == [] <==> JsString.AllWhitespace(parts[i]))
    decreases |parts|
  {
    if parts == [] then []
    else [JsString.Trim(parts[0])] + TrimAll(parts[1..])
  }

  /** `filter(Boolean)` on strings: the non-empty ones, in order, each as
      often as it occurs. */
  function DropEmpty(xs: seq<string>): (r: seq<string>)
    ensures |r| <= |xs|
    ensures forall x :: x in r <==> x in xs && x != []
    ensures multiset(r) == multiset(xs)[[] := 0]
    decreases |xs|
  {
    if xs == [] then []
    else
      var rest := DropEmpty(xs[1..]);
      assert xs == [xs[0]] + xs[1..];
      (if xs[0] == [] then [] else [xs[0]]) + rest
  }

  /** The filter works piecewise, so the kept strings stay in order. */
  lemma {:induction false} DropEmptyConcat(xs: seq<string>, ys: seq<string>)
    ensures DropEmpty(xs + ys) == DropEmpty(xs) + DropEmpty(ys)
    decreases |xs|
  {
    if xs == [] {
      assert xs + ys == ys;
    } else {
      assert (xs + ys)[0] == xs[0];
      assert (xs + ys)[1..] == xs[1..] + ys;
      DropEmptyConcat(xs[1..], ys);
      var head := if xs[0] == [] then [] else [xs[0]];
      Seqs.Assoc(head, DropEmpty(xs[1..]), DropEmpty(ys));
    }
  }

  /** `tags.split(",").map(t => t.trim()).filter(Boolean)`. */
  function ParseTags(s: string): (tags: seq<string>)
    ensures forall i :: 0 <= i < |tags| ==> TidyTag(tags[i])
  {
    ParsedTagsAreTidy(s);
    DropEmpty(TrimAll(JsString.Split(s, ',')))
  }

  /** The tag one comma-free field contributes: its trim, unless blank. */
  function TagOf(field: string): seq<string> {
    if JsString.Trim(field) == [] then [] else [JsString.Trim(field)]
  }

  /** A field without a comma is at most one tag. */
  lemma ParseTagsSingle(field: string)
    requires ',' !in field
    ensures ParseTags(field) == TagOf(field)
  {
    JsString.SplitWithoutSeparator(field, ',');
    assert TrimAll([field]) == [JsString.Trim(field)];
  }

  /** The first field's tag comes first, then the tags of the rest: with
      ParseTagsSingle this fixes the result on every input. */
  lemma ParseTagsCons(field: string, rest: string)
    requires ',' !in field
    ensures ParseTags(field + [','] + rest) == TagOf(field) + ParseTags(rest)
  {
    var pieces := JsString.Split(rest, ',');
    var t := JsString.Trim(field);
    JsString.SplitAtSeparator(field, ',', rest);
    TrimAllCons(field, pieces);
    DropEmptyConcat([t], TrimAll(pieces));
    assert [t][1..] == [];
    assert DropEmpty([t]) == TagOf(field);
  }

  lemma ParsedTagsAreTidy(s: string)
    ensures forall t :: t in DropEmpty(TrimAll(JsString.Split(s, ','))) ==> TidyTag(t)
  {
    var parts := JsString.Split(s, ',');
    var trimmed := TrimAll(parts);
    forall t | t in DropEmpty(trimmed) ensures TidyTag(t) {
      var i :| 0 <= i < |trimmed| && trimmed[i] == t;
      JsString.TrimInfix(parts[i]);
    }
  }

  /** Tags typed as a comma-separated list come back as they were: the
      clean-up only removes what the list's rendering adds. */
  lemma TagsRoundTrip(tags: seq<string>)
    requires forall i :: 0 <= i < |tags| ==> TidyTag(tags[i])
    ensures ParseTags(TagsText(tags)) == tags
  {
    if tags != [] {
      JsString.SplitJoin(tags, ',');
      ParseTidyPieces(tags);
    } else {
      assert JsString.Split("", ',') == [""];
      assert TrimAll([""]) == [""];
      assert DropEmpty([""]) == [] by {
        assert [""][1..] == [];
      }
    }
  }

  /** The text a list of tags is typed as: the tags joined by commas. */
  function TagsText(tags: seq<string>): string {
    if tags == [] then "" else JsString.Join(tags, ',')
  }

  /** Tidy pieces pass through the trim and the filter unchanged. */
  lemma ParseTidyPieces(tags: seq<string>)
    requires forall i :: 0 <= i < |tags| ==> TidyTag(tags[i])
    ensures DropEmpty(TrimAll(tags)) == tags
  {
    TrimAllOfTrimmed(tags);
    DropEmptyOfFull(tags);
  }

  /** Pieces that are already trimmed stay as they are. */
  lemma TrimAllOfTrimmed(parts: seq<string>)
    requires forall i :: 0 <= i < |parts| ==> JsString.IsTrimmed(parts[i])
    ensures TrimAll(parts) == parts
  {
    forall i | 0 <= i < |parts| ensures TrimAll(parts)[i] == parts[i] {
      TrimOfTrimmed(parts[i]);
    }
  }

  /** With no empty string to remove the filter changes nothing. */
  lemma {:induction false} DropEmptyOfFull(xs: seq<string>)
    requires forall i :: 0 <= i < |xs| ==> xs[i] != []
    ensures DropEmpty(xs) == xs
    decreases |xs|
  {
    if xs != [] {
      DropEmptyOfFull(xs[1..]);
    }
  }

  /** Helper: trimming each piece works piece by piece. */
  lemma TrimAllCons(x: string, parts: seq<string>)
    ensures TrimAll([x] + parts) == [JsString.Trim(x)] + TrimAll(parts)
  {
    assert ([x] + parts)[1..] == parts;
  }

  /** `text.trim() || undefined`. */
  function Optional(text: string): (o: Option<string>)
    ensures o.None? <==> JsString.AllWhitespace(text)
    ensures o.Some? ==> o.value == JsString.Trim(text) && o.value != []
  {
    var t := JsString.Trim(text);
    if t == [] then None else Some(t)
  }

  // -----------------------------------------------------------------------
  // Submitting

  /** `handleSubmit`: nothing is submitted while the title is blank;
      otherwise the trimmed title and description, the priority, the
      parsed tags, the optional fields and the chosen column. */
  function Submit(f: Form): (r: Option<Submission>)
    ensures r.None? <==> JsString.AllWhitespace(f.title)
    ensures r.Some? ==> r.value.column == f.column && r.value.task.priority == f.priority
    ensures r.Some? ==> r.value.task.title != [] && JsString.IsTrimmed(r.value.task.title)
    ensures r.Some? ==> JsString.IsTrimmed(r.value.task.description)
    ensures r.Some? ==> forall i :: 0 <= i < |r.value.task.tags| ==> TidyTag(r.value.task.tags[i])
    ensures r.Some? ==> (r.value.task.estimatedHours.None? <==> f.estimatedHours == [])
    ensures r.Some? ==> && r.value.task.title == JsString.Trim(f.title)
                        && r.value.task.description == JsString.Trim(f.description)
                        && r.value.task.tags == ParseTags(f.tags)
                        && (r.value.task.estimatedHours.Some? ==> r.value.task.estimatedHours.value == f.estimatedHours)
                        && r.value.task.monetization == Optional(f.monetization)
                        && r.value.task.requirements == Optional(f.requirements)
  {
    if JsString.Trim(f.title) == [] then None
    else Some(Submission(Clean(f), f.column))
  }

  /** The task a form describes once its fields are cleaned up. */
  function Clean(f: Form): NewTask {
    NewTask(
      JsString.Trim(f.title),
      JsString.Trim(f.description),
      f.priority,
      ParseTags(f.tags),
      if f.estimatedHours != [] then Some(f.estimatedHours) else None,
      Optional(f.monetization),
      Optional(f.requirements))
  }

  /** A task whose fields are already clean. */
  predicate Tidy(t: NewTask) {
    && t.title != [] && JsString.IsTrimmed(t.title)
    && JsString.IsTrimmed(t.description)
    && (forall i :: 0 <= i < |t.tags| ==> TidyTag(t.tags[i]))
    && (t.estimatedHours.Some? ==> t.estimatedHours.value != [])
    && (t.monetization.Some? ==> t.monetization.value != [] && JsString.IsTrimmed(t.monetization.value))
    && (t.requirements.Some? ==> t.requirements.value != [] && JsString.IsTrimmed(t.requirements.value))
  }

  /** The form filled in with a task's fields. */
  function FormOf(t: NewTask, column: ColumnId): Form {
    Form(t.title, t.description, t.priority, TagsText(t.tags), t.estimatedHours.GetOr(""),
         t.monetization.GetOr(""), t.requirements.GetOr(""), column)
  }

  /** Filling the form with a clean task and submitting it hands over that
      very task and column. */
  lemma SubmitRoundTrip(t: NewTask, column: ColumnId)
    requires Tidy(t)
    ensures Submit(FormOf(t, column)) == Some(Submission(t, column))
  {
    var f := FormOf(t, column);
    TrimOfTrimmed(t.title);
    CleanOfTidy(t, f);
  }

  /** Each field of a clean task comes back from the form unchanged. */
  lemma CleanOfTidy(t: NewTask, f: Form)
    requires Tidy(t) && f == FormOf(t, f.column)
    ensures Clean(f) == t
  {
    TrimOfTrimmed(f.title);
    TrimOfTrimmed(f.description);
    TagsRoundTrip(t.tags);
    OptionalOfTidy(t.monetization);
    OptionalOfTidy(t.requirements);
    assert (if f.estimatedHours != [] then Some(f.estimatedHours) else None) == t.estimatedHours;
  }

  /** An absent optional field, or a present clean one, survives the
      clean-up. */
  lemma OptionalOfTidy(o: Option<string>)
    requires o.Some? ==> o.value != [] && JsString.IsTrimmed(o.value)
    ensures Optional(o.GetOr("")) == o
  {
    if o.Some? {
      TrimOfTrimmed(o.value);
    }
  }

  /** Trimming a trimmed string changes nothing. */
  lemma TrimOfTrimmed(s: string)
    requires JsString.IsTrimmed(s)
    ensures JsString.Trim(s) == s
  {
    JsString.TrimUnique(s, [], s, []);
    assert [] + s + [] == s;
  }

  /** Submitting the form as it opens submits nothing. */
  lemma BlankFormSubmitsNothing(target: ColumnId)
    ensures Submit(InitialForm(target)).None?
  {
  }
}

=== FILE: auth.dfy ===
/** The access-control core (lib/auth.ts): password check against a
    configured bcrypt hash, the in-memory session store, the static API key
    and the authorization decision every protected write consults.

    The clock is the parameter `now` (milliseconds), the random session
    token is the parameter `token`, and `bcrypt.compare` is the oracle
    `compare`. The session store is a value: operations that change it
    return the new store. */
module Auth {
  import opened Wrappers
  import JsString
  import Http

  /** Session lifetime: 24 hours in milliseconds. */
  const SESSION_TTL_MS: int := 24 * 60 * 60 * 1000

  /** The process configuration; an unset variable is the empty string. */
  datatype Config = Config(passwordHash: string, apiKey: string)

  /** Session token to expiry time. */
  type Sessions = map<string, int>

  /** `bcrypt.compare(password, hash)`. */
  type HashCompare = (string, string) -> bool

  // -----------------------------------------------------------------------
  // Password

  /** `verifyPassword`: with no hash configured it fails closed without
      consulting the oracle; otherwise the oracle decides. */
  function VerifyPassword(cfg: Config, password: string, compare: HashCompare): (ok: bool)
    ensures ok ==> cfg.passwordHash != [] && compare(password, cfg.passwordHash)
    ensures cfg.passwordHash != [] && compare(password, cfg.passwordHash) ==> ok
  {
    if cfg.passwordHash == [] then false else compare(password, cfg.passwordHash)
  }

  /** With no hash configured the answer is false whatever the oracle
      would say: the oracle is never consulted. */
  lemma PasswordFailsClosed(cfg: Config, password: string, c1: HashCompare, c2: HashCompare)
    requires cfg.passwordHash == []
    ensures !VerifyPassword(cfg, password, c1)
    ensures VerifyPassword(cfg, password, c1) == VerifyPassword(cfg, password, c2)
  {
  }

  // -----------------------------------------------------------------------
  // Sessions

  /** A session is live at `now` while its expiry is not before `now`. */
  predicate Live(s: Sessions, token: string, now: int) {
    token in s && s[token] >= now
  }

  /** `createSessionToken` at time `now`, with `token` the fresh random
      value: one entry expiring 24 hours later; every other entry kept. */
  function CreateSession(s: Sessions, token: string, now: int): (s': Sessions)
    ensures token in s' && s'[token] == now + SESSION_TTL_MS
    ensures forall t :: t != token ==> (t in s' <==> t in s)
    ensures forall t :: t != token && t in s ==> s'[t] == s[t]
    ensures token !in s ==> |s'| == |s| + 1
  {
    s[token := now + SESSION_TTL_MS]
  }

  /** A validity verdict together with the store it leaves behind. */
  datatype Verdict = Verdict(valid: bool, sessions: Sessions)

  /** `verifySessionToken`: an unknown token is rejected and nothing
      changes; an expired one (expiry strictly before `now`) is deleted and
      rejected; a live one is accepted and its expiry is not extended. */
  function VerifySession(s: Sessions, token: string, now: int): (r: Verdict)
    ensures r.valid <==> Live(s, token, now)
    ensures token !in s ==> r.sessions == s
    ensures token in s && s[token] < now ==> r.sessions == s - {token} && token !in r.sessions
    ensures r.valid ==> r.sessions == s
    ensures r.sessions.Keys <= s.Keys
  {
    if token !in s then Verdict(false, s)
    else if s[token] < now then Verdict(false, s - {token})
    else Verdict(true, s)
  }

  /** An expired token stays rejected, and the second check changes
      nothing more. */
  lemma ExpiredStaysRejected(s: Sessions, token: string, now: int, later: int)
    requires token in s && s[token] < now && now <= later
    ensures !VerifySession(s, token, now).valid
    ensures var s1 := VerifySession(s, token, now).sessions;
            VerifySession(s1, token, later) == Verdict(false, s1)
  {
  }

  /** A freshly created session is valid until its expiry instant
      inclusive and invalid at any later time. */
  lemma SessionLifetime(s: Sessions, token: string, created: int, now: int)
    requires created <= now
    ensures VerifySession(CreateSession(s, token, created), token, now).valid
            <==> now <= created + SESSION_TTL_MS
  {
  }

  /** The periodic sweep: removes exactly the entries whose expiry is
      before `now` and keeps the rest unchanged. */
  function Sweep(s: Sessions, now: int): (s': Sessions)
    ensures forall t :: t in s' <==> Live(s, t, now)
    ensures forall t :: t in s' ==> t in s && s'[t] == s[t]
  {
    map t | t in s && s[t] >= now :: s[t]
  }

  /** Sweeping never changes a verdict at the same or any later time. */
  lemma SweepPreservesVerdicts(s: Sessions, sweptAt: int, token: string, now: int)
    requires sweptAt <= now
    ensures VerifySession(Sweep(s, sweptAt), token, now).valid == VerifySession(s, token, now).valid
  {
  }

  // -----------------------------------------------------------------------
  // API key

  /** How many positions differ; every position is inspected, so the
      amount of work does not depend on where the first difference is. */
  function Mismatches(a: string, b: string): (n: nat)
    requires |a| == |b|
    ensures n <= |a|
    ensures n == 0 <==> a == b
    decreases |a|
  {
    if a == [] then 0
    else
      var rest := Mismatches(a[1..], b[1..]);
      assert a == b <==> a[0] == b[0] && a[1..] == b[1..] by {
        if a[0] == b[0] && a[1..] == b[1..] {
          assert a == [a[0]] + a[1..] && b == [b[0]] + b[1..];
        }
      }
      (if a[0] != b[0] then 1 else 0) + rest
  }

  /** `crypto.timingSafeEqual` on equal-length keys. */
  function TimingSafeEqual(a: string, b: string): (eq: bool)
    requires |a| == |b|
    ensures eq <==> a == b
  {
    Mismatches(a, b) == 0
  }

  /** `verifyApiKey`: no key configured, or a length mismatch, rejects
      before any comparison; otherwise the full comparison decides. */
  function VerifyApiKey(cfg: Config, key: string): (ok: bool)
    ensures ok <==> cfg.apiKey != [] && key == cfg.apiKey
  {
    if cfg.apiKey == [] then false
    else if |key| != |cfg.apiKey| then false
    else TimingSafeEqual(key, cfg.apiKey)
  }

  // -----------------------------------------------------------------------
  // Authorization

  const BEARER: string := "Bearer "

  /** The key of an `Authorization: Bearer <key>` header: the text after
      the seven-character scheme prefix. */
  function BearerKey(authorization: Option<string>): (k: Option<string>)
    ensures k.Some? <==> authorization.Some? && JsString.StartsWith(authorization.value, BEARER)
    ensures k.Some? ==> authorization.value == BEARER + k.value
  {
    if authorization.Some? && JsString.StartsWith(authorization.value, BEARER)
    then Some(authorization.value[7..])
    else None
  }

  /** The API-key condition of the gate. */
  predicate ApiKeyAccepted(cfg: Config, h: Http.Headers) {
    BearerKey(h.authorization).Some? && VerifyApiKey(cfg, BearerKey(h.authorization).value)
  }

  /** The session condition of the gate: a non-empty session header naming
      a live session. */
  predicate SessionAccepted(s: Sessions, h: Http.Headers, now: int) {
    h.sessionToken.Some? && h.sessionToken.value != [] && Live(s, h.sessionToken.value, now)
  }

  /** `isAuthorized`: authorized iff the bearer key matches or the session
      header names a live session. The API key is tried first; only when it
      fails is the session header consulted, and that check deletes an
      expired session, so the decision can change the store. */
  function IsAuthorized(cfg: Config, s: Sessions, h: Http.Headers, now: int): (r: Verdict)
    ensures r.valid <==> ApiKeyAccepted(cfg, h) || SessionAccepted(s, h, now)
    ensures ApiKeyAccepted(cfg, h) ==> r.sessions == s
    ensures r.valid ==> r.sessions == s
    ensures !ApiKeyAccepted(cfg, h) && h.sessionToken.Some? && h.sessionToken.value != []
            ==> r.sessions == VerifySession(s, h.sessionToken.value, now).sessions
    ensures (h.sessionToken.None? || h.sessionToken.value == []) ==> r.sessions == s
  {
    var key := BearerKey(h.authorization);
    if key.Some? && VerifyApiKey(cfg, key.value) then Verdict(true, s)
    else if h.sessionToken.Some? && h.sessionToken.value != [] then VerifySession(s, h.sessionToken.value, now)
    else Verdict(false, s)
  }

  /** With no API key configured and no sessions, every request is denied
      and the (empty) store stays as it is. */
  lemma FailsClosedWhenUnconfigured(cfg: Config, h: Http.Headers, now: int)
    requires cfg.apiKey == []
    ensures IsAuthorized(cfg, map[], h, now) == Verdict(false, map[])
  {
  }

  /** Either credential alone suffices: the configured key as a bearer
      token with no session header, or a live session with no
      Authorization header. */
  lemma EitherCredentialSuffices(cfg: Config, s: Sessions, token: string, now: int)
    requires cfg.apiKey != []
    requires token != [] && Live(s, token, now)
    ensures IsAuthorized(cfg, s, Http.Headers(Some(BEARER + cfg.apiKey), None, None, None), now).valid
    ensures IsAuthorized(cfg, s, Http.Headers(None, Some(token), None, None), now).valid
  {
    assert (BEARER + cfg.apiKey)[..7] == BEARER;
    assert (BEARER + cfg.apiKey)[7..] == cfg.apiKey;
  }
}

=== FILE: board.dfy ===
/** What the board write endpoints (app/api/board/add, move and update) and
    the board view share: the reply vocabulary, the lookups `findIndex` /
    `find` over columns and tasks, the `filter` that removes a task by id,
    and task counts over the whole board.

    `getBoard()` is modelled as the input `stored: Option<Board>` (`None`
    when it yields null) and `saveBoard(columns)` as the board the route
    hands over (`written`) plus the input `saved`, the boolean the store
    reports back. */
module BoardRoutes {
  import opened Wrappers
  import opened Json
  import opened Types
  import Auth
  import Http
  import Seqs

  datatype Reply =
    | Ok
    | Added(taskId: Value)
    | Unauthorized
    | BadRequest
    | NotFound
    | Conflict
    | ServerError
  {
    function Status(): int {
      match this
      case Ok => 200
      case Added(_) => 200
      case Unauthorized => 401
      case BadRequest => 400
      case NotFound => 404
      case Conflict => 409
      case ServerError => 500
    }
  }

  /** A route's reply, the session store after its authorization check,
      and the board it handed to `saveBoard` (`None` if it never did). */
  datatype Outcome = Outcome(reply: Reply, sessions: Auth.Sessions, written: Option<Board>)

  /** The parsed body, if it can be destructured: `request.json()` may
      reject, and destructuring `null` throws; both end in the routes'
      `catch`, which answers 500. */
  function Destructurable(body: Http.Body): (v: Option<Value>)
    ensures v.Some? <==> body.Parsed? && !body.value.Null?
    ensures v.Some? ==> v.value == body.value
  {
    match body
    case Malformed => None
    case Parsed(v) => if v.Null? then None else Some(v)
  }

  // -----------------------------------------------------------------------
  // Lookups

  /** `c.id === key`. */
  predicate ColumnIs(c: Column, key: Value) {
    StrictEquals(Str(c.id), key)
  }

  /** `columns.findIndex(c => c.id === key)`. */
  function FindColumn(b: Board, key: Value): (r: Option<nat>)
    ensures r.Some? ==> r.value < |b| && ColumnIs(b[r.value], key)
    ensures r.Some? ==> forall i :: 0 <= i < r.value ==> !ColumnIs(b[i], key)
    ensures r.None? <==> forall i :: 0 <= i < |b| ==> !ColumnIs(b[i], key)
    decreases |b|
  {
    if b == [] then None
    else if ColumnIs(b[0], key) then Some(0)
    else
      match FindColumn(b[1..], key)
      case None => None
      case Some(i) => Some(i + 1)
  }

  /** Some task of the list has the id. */
  predicate Holds(ts: seq<Task>, id: Value) {
    exists j :: 0 <= j < |ts| && HasId(ts[j], id)
  }

  /** Some column of the board holds a task with the id. */
  predicate OnBoard(b: Board, id: Value) {
    exists i :: 0 <= i < |b| && Holds(b[i].tasks, id)
  }

  /** `tasks.findIndex(t => t.id === id)`. */
  function FindTask(ts: seq<Task>, id: Value): (r: Option<nat>)
    ensures r.Some? ==> r.value < |ts| && HasId(ts[r.value], id)
    ensures r.Some? ==> forall j :: 0 <= j < r.value ==> !HasId(ts[j], id)
    ensures r.None? <==> !Holds(ts, id)
    decreases |ts|
  {
    if ts == [] then None
    else if HasId(ts[0], id) then Some(0)
    else
      match FindTask(ts[1..], id)
      case None => None
      case Some(j) => Some(j + 1)
  }

  /** The scan both the move and the update route perform: the first
      column, in board order, holding a task with the id, and the first
      such task in it. */
  function Locate(b: Board, id: Value): (r: Option<(nat, nat)>)
    ensures r.Some? ==> r.value.0 < |b| && r.value.1 < |b[r.value.0].tasks|
    ensures r.Some? ==> HasId(b[r.value.0].tasks[r.value.1], id)
    ensures r.Some? ==> forall j :: 0 <= j < r.value.1 ==> !HasId(b[r.value.0].tasks[j], id)
    ensures r.Some? ==> forall i :: 0 <= i < r.value.0 ==> !Holds(b[i].tasks, id)
    ensures r.None? <==> !OnBoard(b, id)
    decreases |b|
  {
    if b == [] then None
    else
      match FindTask(b[0].tasks, id)
      case Some(j) => Some((0, j))
      case None =>
        match Locate(b[1..], id)
        case None => None
        case Some(p) => Some((p.0 + 1, p.1))
  }

  // -----------------------------------------------------------------------
  // Counting

  /** `columns.flatMap(c => c.tasks)`. */
  function AllTasks(b: Board): seq<Task>
    decreases |b|
  {
    if b == [] then [] else b[0].tasks + AllTasks(b[1..])
  }

  /** Every task of every column is in the flattened board. */
  lemma {:induction false} InAllTasks(b: Board, i: nat, j: nat)
    requires i < |b| && j < |b[i].tasks|
    ensures b[i].tasks[j] in AllTasks(b)
    decreases |b|
  {
    if i == 0 {
      assert AllTasks(b)[j] == b[0].tasks[j];
    } else {
      assert b[1..][i - 1] == b[i];
      InAllTasks(b[1..], i - 1, j);
    }
  }

  /** The number of tasks on the board: the sum of the column lengths. */
  function TaskCount(b: Board): nat
    decreases |b|
  {
    if b == [] then 0 else |b[0].tasks| + TaskCount(b[1..])
  }

  /** The count is the length of the flattened board. */
  lemma {:induction false} TaskCountFlattens(b: Board)
    ensures TaskCount(b) == |AllTasks(b)|
    decreases |b|
  {
    if b != [] {
      TaskCountFlattens(b[1..]);
    }
  }

  /** How many tasks of the list have the id. */
  function Matches(ts: seq<Task>, id: Value): (n: nat)
    ensures n <= |ts|
    ensures n == 0 <==> !Holds(ts, id)
    decreases |ts|
  {
    if ts == [] then 0
    else
      var rest := Matches(ts[1..], id);
      assert Holds(ts, id) <==> HasId(ts[0], id) || Holds(ts[1..], id) by {
        if Holds(ts, id) && !HasId(ts[0], id) {
          var j :| 0 <= j < |ts| && HasId(ts[j], id);
          assert ts[1..][j - 1] == ts[j];
        }
        if Holds(ts[1..], id) {
          var j :| 0 <= j < |ts[1..]| && HasId(ts[1..][j], id);
          assert ts[j + 1] == ts[1..][j];
        }
      }
      (if HasId(ts[0], id) then 1 else 0) + rest
  }

  /** How many tasks on the whole board have the id. */
  function CountId(b: Board, id: Value): (n: nat)
    ensures n <= TaskCount(b)
    ensures n == 0 <==> !OnBoard(b, id)
    decreases |b|
  {
    if b == [] then 0
    else
      var rest := CountId(b[1..], id);
      OnBoardCons(b, id);
      Matches(b[0].tasks, id) + rest
  }

  /** A board holds the id when its first column or the rest does. */
  lemma OnBoardCons(b: Board, id: Value)
    requires b != []
    ensures OnBoard(b, id) <==> Holds(b[0].tasks, id) || OnBoard(b[1..], id)
  {
    if OnBoard(b, id) && !Holds(b[0].tasks, id) {
      var i :| 0 <= i < |b| && Holds(b[i].tasks, id);
      assert b[1..][i - 1] == b[i];
    }
    if OnBoard(b[1..], id) {
      var i :| 0 <= i < |b[1..]| && Holds(b[1..][i].tasks, id);
      assert b[i + 1] == b[1..][i];
    }
  }

  /** The board with column `i`'s tasks replaced. */
  function WithTasks(b: Board, i: nat, ts: seq<Task>): (b': Board)
    requires i < |b|
    ensures |b'| == |b| && b'[i].tasks == ts
    ensures b'[i].id == b[i].id && b'[i].title == b[i].title && b'[i].emoji == b[i].emoji
    ensures forall k :: 0 <= k < |b| && k != i ==> b'[k] == b[k]
  {
    b[i := b[i].(tasks := ts)]
  }

  /** Replacing one column's tasks changes the count by the difference. */
  lemma {:induction false} TaskCountWithTasks(b: Board, i: nat, ts: seq<Task>)
    requires i < |b|
    ensures TaskCount(WithTasks(b, i, ts)) == TaskCount(b) - |b[i].tasks| + |ts|
    decreases |b|
  {
    if i > 0 {
      assert WithTasks(b, i, ts)[1..] == WithTasks(b[1..], i - 1, ts);
      TaskCountWithTasks(b[1..], i - 1, ts);
    } else {
      assert WithTasks(b, i, ts)[1..] == b[1..];
    }
  }

  /** Replacing one column's tasks changes the per-id count likewise. */
  lemma {:induction false} CountIdWithTasks(b: Board, i: nat, ts: seq<Task>, id: Value)
    requires i < |b|
    ensures CountId(WithTasks(b, i, ts), id) == CountId(b, id) - Matches(b[i].tasks, id) + Matches(ts, id)
    decreases |b|
  {
    if i > 0 {
      assert WithTasks(b, i, ts)[1..] == WithTasks(b[1..], i - 1, ts);
      CountIdWithTasks(b[1..], i - 1, ts, id);
    } else {
      assert WithTasks(b, i, ts)[1..] == b[1..];
    }
  }

  // -----------------------------------------------------------------------
  // Removing by id

  /** `tasks.filter(t => t.id !== id)`. */
  function RemoveId(ts: seq<Task>, id: Value): (r: seq<Task>)
    ensures |r| == |ts| - Matches(ts, id)
    ensures !Holds(r, id)
    decreases |ts|
  {
    if ts == [] then []
    else (if HasId(ts[0], id) then [] else [ts[0]]) + RemoveId(ts[1..], id)
  }

  /** Filtering works piecewise, so the surviving tasks keep their
      relative order. */
  lemma {:induction false} RemoveIdDistributes(a: seq<Task>, c: seq<Task>, id: Value)
    ensures RemoveId(a + c, id) == RemoveId(a, id) + RemoveId(c, id)
    decreases |a|
  {
    if a == [] {
      assert a + c == c;
    } else {
      var head := if HasId(a[0], id) then [] else [a[0]];
      assert (a + c)[0] == a[0];
      assert (a + c)[1..] == a[1..] + c;
      RemoveIdDistributes(a[1..], c, id);
      calc {
        RemoveId(a + c, id);
        head + RemoveId(a[1..] + c, id);
        head + (RemoveId(a[1..], id) + RemoveId(c, id));
        { Seqs.Assoc(head, RemoveId(a[1..], id), RemoveId(c, id)); }
        (head + RemoveId(a[1..], id)) + RemoveId(c, id);
        RemoveId(a, id) + RemoveId(c, id);
      }
    }
  }

  /** Filtering a list that does not hold the id changes nothing. */
  lemma {:induction false} RemoveIdAbsent(ts: seq<Task>, id: Value)
    requires !Holds(ts, id)
    ensures RemoveId(ts, id) == ts
    decreases |ts|
  {
    if ts != [] {
      assert !HasId(ts[0], id);
      RemoveIdAbsent(ts[1..], id);
      assert [ts[0]] + ts[1..] == ts;
    }
  }

  /** When the id occurs once, at index `j`, filtering drops exactly that
      element. */
  lemma RemoveIdUnique(ts: seq<Task>, j: nat, id: Value)
    requires j < |ts| && HasId(ts[j], id) && Matches(ts, id) == 1
    ensures RemoveId(ts, id) == ts[..j] + ts[j + 1..]
  {
    var a, x, c := ts[..j], [ts[j]], ts[j + 1..];
    assert ts == a + (x + c);
    MatchesSplit(a, x + c, id);
    MatchesSplit(x, c, id);
    assert Matches(x, id) == 1 by {
      assert x[1..] == [];
    }
    assert RemoveId(x, id) == [] by {
      assert x[1..] == [];
    }
    RemoveIdAbsent(a, id);
    RemoveIdAbsent(c, id);
    RemoveIdDistributes(a, x + c, id);
    RemoveIdDistributes(x, c, id);
    calc {
      RemoveId(ts, id);
      RemoveId(a, id) + RemoveId(x + c, id);
      a + (RemoveId(x, id) + RemoveId(c, id));
      a + ([] + c);
      { assert [] + c == c; }
      a + c;
    }
  }

  /** A list with a single match has it at one index only. */
  lemma MatchesOneUnique(ts: seq<Task>, j: nat, id: Value)
    requires j < |ts| && HasId(ts[j], id) && Matches(ts, id) == 1
    ensures forall k :: 0 <= k < |ts| && k != j ==> !HasId(ts[k], id)
  {
    RemoveIdUnique(ts, j, id);
    var r := RemoveId(ts, id);
    forall k | 0 <= k < |ts| && k != j ensures !HasId(ts[k], id) {
      if k < j {
        assert r[k] == ts[k];
      } else if k > j {
        assert r[k - 1] == ts[k];
      }
    }
  }

  lemma {:induction false} MatchesSplit(a: seq<Task>, c: seq<Task>, id: Value)
    ensures Matches(a + c, id) == Matches(a, id) + Matches(c, id)
    decreases |a|
  {
    if a == [] {
      assert a + c == c;
    } else {
      assert (a + c)[0] == a[0];
      assert (a + c)[1..] == a[1..] + c;
      MatchesSplit(a[1..], c, id);
    }
  }

  /** The task's `updatedAt` is the given date. */
  predicate StampedOn(t: Task, today: string) {
    "updatedAt" in t && t["updatedAt"] == Str(today)
  }

  /** The task with its `updatedAt` stamped. Its id, and so every match
      against an id, is unaffected. */
  function Touch(t: Task, today: string): (t': Task)
    ensures t'.Keys == t.Keys + {"updatedAt"} && StampedOn(t', today)
    ensures forall k :: k in t && k != "updatedAt" ==> t'[k] == t[k]
    ensures forall id :: HasId(t', id) <==> HasId(t, id)
  {
    t["updatedAt" := Str(today)]
  }

  /** Filtering twice is filtering once. */
  lemma RemoveIdIdempotent(ts: seq<Task>, id: Value)
    ensures RemoveId(RemoveId(ts, id), id) == RemoveId(ts, id)
  {
    RemoveIdAbsent(RemoveId(ts, id), id);
  }

  /** Appending a task with the id adds nothing the filter keeps, and one
      match. */
  lemma AppendMatching(ts: seq<Task>, t: Task, id: Value)
    requires HasId(t, id)
    ensures RemoveId(ts + [t], id) == RemoveId(ts, id)
    ensures Matches(ts + [t], id) == Matches(ts, id) + 1
  {
    RemoveIdDistributes(ts, [t], id);
    MatchesSplit(ts, [t], id);
    assert [t][1..] == [];
    assert RemoveId([t], id) == [];
    assert RemoveId(ts, id) + [] == RemoveId(ts, id);
  }

  /** Two different columns together hold no more than the whole board. */
  lemma {:induction false} TwoColumnsWithinCount(b: Board, i: nat, k: nat)
    requires i < |b| && k < |b| && i != k
    ensures |b[i].tasks| + |b[k].tasks| <= TaskCount(b)
    decreases |b|
  {
    if i > 0 && k > 0 {
      TwoColumnsWithinCount(b[1..], i - 1, k - 1);
    } else if i == 0 {
      ColumnWithinCount(b[1..], k - 1);
    } else {
      ColumnWithinCount(b[1..], i - 1);
    }
  }

  /** One column holds no more than the whole board. */
  lemma {:induction false} ColumnWithinCount(b: Board, i: nat)
    requires i < |b|
    ensures |b[i].tasks| <= TaskCount(b)
    decreases |b|
  {
    if i > 0 {
      ColumnWithinCount(b[1..], i - 1);
    }
  }
}

=== FILE: board_add.dfy ===
/** `POST /api/board/add` (app/api/board/add/route.ts): authorize, read
    `{ task, column = "backlog" }`, look the column up, give the task an id
    (`task-<max+1>` when none is supplied) and its defaults, refuse a
    duplicate id, append the task to the column and save the board. */
module BoardAdd {
  import opened Wrappers
  import opened Json
  import opened Types
  import JsString
  import Auth
  import Http
  import opened BoardRoutes

  const ID_PREFIX: string := "task-"
  const DEFAULT_COLUMN: string := "backlog"
  const DEFAULT_PRIORITY: string := "medium"

  // -----------------------------------------------------------------------
  // Id generation

  /** What `parseInt(t.id?.replace('task-', '') || '0')` makes of a task:
      `replace` throws on an id that is neither a string nor nullish. */
  datatype IdNumber = Throws | NotANumber | Number(n: int)

  function IdNumberOf(t: Task): (r: IdNumber)
    ensures r.Throws? <==> "id" in t && !t["id"].Null? && !t["id"].Str?
    ensures "id" !in t || t["id"].Null? ==> r == Number(0)
  {
    if "id" !in t || t["id"].Null? then Number(0)
    else if t["id"].Str? then
      var rest := JsString.RemoveFirst(t["id"].s, ID_PREFIX);
      match JsString.ParseInt(if rest == [] then "0" else rest)
      case None => NotANumber
      case Some(n) => Number(n)
    else Throws
  }

  /** The id numbers of a task list, in order. */
  function IdNumbers(ts: seq<Task>): (ns: seq<IdNumber>)
    ensures |ns| == |ts|
    ensures forall i :: 0 <= i < |ts| ==> ns[i] == IdNumberOf(ts[i])
  {
    seq(|ts|, i requires 0 <= i < |ts| => IdNumberOf(ts[i]))
  }

  /** `allTasks.reduce((max, t) => num > max ? num : max, 0)` on the id
      numbers: the largest number, at least 0; `None` when some id throws
      (`NaN` is never greater, so it is skipped). */
  function MaxId(ns: seq<IdNumber>): (r: Option<int>)
    ensures r.None? <==> exists i :: 0 <= i < |ns| && ns[i].Throws?
    ensures r.Some? ==> r.value >= 0
    ensures r.Some? ==> forall i :: 0 <= i < |ns| && ns[i].Number? ==> ns[i].n <= r.value
    ensures r.Some? && r.value != 0 ==> exists i :: 0 <= i < |ns| && ns[i] == Number(r.value)
    decreases |ns|
  {
    if ns == [] then Some(0)
    else
      var n := |ns| - 1;
      assert forall i :: 0 <= i < n ==> ns[..n][i] == ns[i];
      match MaxId(ns[..n])
      case None => None
      case Some(m) =>
        match ns[n]
        case Throws => None
        case NotANumber => Some(m)
        case Number(k) => Some(if k > m then k else m)
  }

  /** The largest id number on a list of tasks: 0 when there is none
      above 0, otherwise one of the tasks' numbers. */
  function MaxIdNumber(ts: seq<Task>): (r: Option<int>)
    ensures r.None? <==> exists i :: 0 <= i < |ts| && IdNumberOf(ts[i]).Throws?
    ensures r.Some? ==> r.value >= 0
    ensures r.Some? ==> forall i :: 0 <= i < |ts| && IdNumberOf(ts[i]).Number? ==> IdNumberOf(ts[i]).n <= r.value
    ensures r.Some? && r.value != 0 ==> exists i :: 0 <= i < |ts| && IdNumberOf(ts[i]) == Number(r.value)
  {
    var ns := IdNumbers(ts);
    var r := MaxId(ns);
    assert r.Some? && r.value != 0 ==> exists i :: 0 <= i < |ts| && IdNumberOf(ts[i]) == Number(r.value) by {
      if r.Some? && r.value != 0 {
        var i :| 0 <= i < |ns| && ns[i] == Number(r.value);
        assert IdNumberOf(ts[i]) == Number(r.value);
      }
    }
    assert r.None? ==> exists i :: 0 <= i < |ts| && IdNumberOf(ts[i]).Throws? by {
      if r.None? {
        var i :| 0 <= i < |ns| && ns[i].Throws?;
        assert IdNumberOf(ts[i]).Throws?;
      }
    }
    r
  }

  /** The id given to a task that arrives without one: `task-<max+1>`,
      the id whose number is one more than the largest on the board. It
      can never equal the id of a task already on the board. */
  function GeneratedId(b: Board): (r: Option<string>)
    ensures r.None? <==> MaxIdNumber(AllTasks(b)).None?
    ensures r.Some? ==> JsString.StartsWith(r.value, ID_PREFIX)
    ensures r.Some? ==> !OnBoard(b, Str(r.value))
    ensures r.Some? ==> IdNumberOf(map["id" := Str(r.value)]) == Number(MaxIdNumber(AllTasks(b)).value + 1)
  {
    match MaxIdNumber(AllTasks(b))
    case None => None
    case Some(m) =>
      var id := ID_PREFIX + JsString.NatToDecimal(m + 1);
      GeneratedIdIsFresh(b, m);
      IdNumberOfGenerated(map["id" := Str(id)], m + 1);
      assert id[..|ID_PREFIX|] == ID_PREFIX;
      Some(id)
  }

  /** The generated number exceeds every parsed id, so no task carries the
      generated id. */
  lemma GeneratedIdIsFresh(b: Board, m: int)
    requires MaxIdNumber(AllTasks(b)) == Some(m)
    ensures !OnBoard(b, Str(ID_PREFIX + JsString.NatToDecimal(m + 1)))
  {
    var id := ID_PREFIX + JsString.NatToDecimal(m + 1);
    if OnBoard(b, Str(id)) {
      var i :| 0 <= i < |b| && Holds(b[i].tasks, Str(id));
      var j :| 0 <= j < |b[i].tasks| && HasId(b[i].tasks[j], Str(id));
      var t := b[i].tasks[j];
      StrictEqualsStr(t["id"], id);
      IdNumberOfGenerated(t, m + 1);
      InAllTasks(b, i, j);
      MaxIdBounds(AllTasks(b), m, t);
    }
  }

  /** No task of the list has an id number above the maximum. */
  lemma MaxIdBounds(ts: seq<Task>, m: int, t: Task)
    requires MaxIdNumber(ts) == Some(m) && t in ts
    ensures IdNumberOf(t).Number? ==> IdNumberOf(t).n <= m
  {
    var k :| 0 <= k < |ts| && ts[k] == t;
  }

  /** A task whose id is `task-<n>` has id number `n`. */
  lemma IdNumberOfGenerated(t: Task, n: nat)
    requires "id" in t && t["id"] == Str(ID_PREFIX + JsString.NatToDecimal(n))
    ensures IdNumberOf(t) == Number(n)
  {
    JsString.RemoveFirstOfPrefixed(ID_PREFIX, JsString.NatToDecimal(n));
    JsString.ParseIntOfDecimal(n);
  }

  // -----------------------------------------------------------------------
  // Defaults and insertion

  /** The task as it is stored (lines 65-73): the id, `createdAt` kept if
      truthy else today, `updatedAt` today, `priority` kept if truthy else
      "medium", `tags` kept if truthy else `[]`; every other field as sent. */
  function Prepare(task: map<string, Value>, id: Value, today: string): (t: Task)
    ensures t.Keys == task.Keys + {"id", "createdAt", "updatedAt", "priority", "tags"}
    ensures t["id"] == id && t["updatedAt"] == Str(today)
    ensures t["createdAt"] == (if IsSet(Member(Obj(task), "createdAt")) then task["createdAt"] else Str(today))
    ensures t["priority"] == (if IsSet(Member(Obj(task), "priority")) then task["priority"] else Str(DEFAULT_PRIORITY))
    ensures t["tags"] == (if IsSet(Member(Obj(task), "tags")) then task["tags"] else Arr([]))
    ensures forall k :: k in task && k !in {"id", "createdAt", "updatedAt", "priority", "tags"} ==> t[k] == task[k]
  {
    task["id" := id]
        ["createdAt" := if IsSet(Member(Obj(task), "createdAt")) then task["createdAt"] else Str(today)]
        ["updatedAt" := Str(today)]
        ["priority" := if IsSet(Member(Obj(task), "priority")) then task["priority"] else Str(DEFAULT_PRIORITY)]
        ["tags" := if IsSet(Member(Obj(task), "tags")) then task["tags"] else Arr([])]
  }

  datatype Insertion =
    | IdThrew
    | Duplicate(id: Value)
    | Inserted(board: Board, id: Value)

  /** Lines 58-87 once the target column `ci` is known: choose the id,
      apply the defaults, refuse an id already on the board, append. */
  function Insert(b: Board, ci: nat, task: map<string, Value>, today: string): (r: Insertion)
    requires ci < |b|
    ensures r.IdThrew? <==> !IsSet(Member(Obj(task), "id")) && GeneratedId(b).None?
    ensures r.Duplicate? ==> IsSet(Member(Obj(task), "id")) && r.id == task["id"] && OnBoard(b, r.id)
    ensures r.Inserted? ==> !OnBoard(b, r.id)
    ensures r.Inserted? ==> r.id == (if IsSet(Member(Obj(task), "id")) then task["id"] else Str(GeneratedId(b).value))
    ensures r.Inserted? ==> r.board == WithTasks(b, ci, b[ci].tasks + [Prepare(task, r.id, today)])
    ensures r.Inserted? ==> TaskCount(r.board) == TaskCount(b) + 1
  {
    var id := if IsSet(Member(Obj(task), "id")) then Some(task["id"])
              else if GeneratedId(b).Some? then Some(Str(GeneratedId(b).value))
              else None;
    if id.None? then IdThrew
    else if OnBoard(b, id.value) then Duplicate(id.value)
    else
      var t := Prepare(task, id.value, today);
      TaskCountWithTasks(b, ci, b[ci].tasks + [t]);
      Inserted(WithTasks(b, ci, b[ci].tasks + [t]), id.value)
  }

  // -----------------------------------------------------------------------
  // The request handler

  /** A body's `task`, and its `column` with the default applied when the
      property is absent (a `null` column stays `null`). */
  datatype AddRequest = AddRequest(task: Option<Value>, column: Value)

  function ParseRequest(v: Value): (req: AddRequest)
    requires !v.Null?
    ensures Member(v, "column").None? ==> req.column == Str(DEFAULT_COLUMN)
    ensures Member(v, "column").Some? ==> req.column == Member(v, "column").value
  {
    AddRequest(Member(v, "task"), Member(v, "column").GetOr(Str(DEFAULT_COLUMN)))
  }

  /** Only an object can carry a `title`: arrays and strings expose just
      `length` and their indices. */
  lemma TitleOnlyOnObjects(v: Value)
    requires !v.Null? && Member(v, "title").Some?
    ensures v.Obj?
  {
    assert !IsIndexKey("title") by {
      assert !('0' <= "title"[0] <= '9');
    }
  }

  /** `task` is present and has a truthy `title`. */
  predicate HasTitle(req: AddRequest) {
    IsSet(req.task) && IsSet(Member(req.task.value, "title"))
  }

  /** The task's own fields; a task with a title is always an object. */
  function TaskFields(req: AddRequest): (fields: map<string, Value>)
    requires HasTitle(req)
    ensures req.task.value.Obj? && fields == req.task.value.fields
  {
    TitleOnlyOnObjects(req.task.value);
    req.task.value.fields
  }

  /** The request is authorized, its body destructures into a task with a
      title, and the board could be read: lines 27-47 let it through. */
  predicate Admitted(cfg: Auth.Config, sessions: Auth.Sessions, h: Http.Headers, body: Http.Body,
                     now: int, stored: Option<Board>) {
    && Auth.IsAuthorized(cfg, sessions, h, now).valid
    && Destructurable(body).Some?
    && HasTitle(ParseRequest(Destructurable(body).value))
    && stored.Some?
  }

  /** `POST /api/board/add`. */
  function Post(cfg: Auth.Config, sessions: Auth.Sessions, h: Http.Headers, body: Http.Body,
                now: int, today: string, stored: Option<Board>, saved: bool): (r: Outcome)
    ensures r.sessions == Auth.IsAuthorized(cfg, sessions, h, now).sessions
    // An unauthorized request is refused before the body or the board is looked at.
    ensures r.reply == Unauthorized <==> !Auth.IsAuthorized(cfg, sessions, h, now).valid
    ensures r.reply == Unauthorized ==> r.written.None?
    // A body without a task or a title is a bad request.
    ensures Auth.IsAuthorized(cfg, sessions, h, now).valid && Destructurable(body).Some?
            && !HasTitle(ParseRequest(Destructurable(body).value))
            ==> r.reply == BadRequest && r.written.None?
    // A body that cannot be destructured, or a board that cannot be read,
    // ends in the catch-all 500 with nothing written.
    ensures Auth.IsAuthorized(cfg, sessions, h, now).valid
            && (Destructurable(body).None?
                || (HasTitle(ParseRequest(Destructurable(body).value)) && stored.None?))
            ==> r.reply == ServerError && r.written.None?
    // Once admitted: an unknown column is not found; otherwise the
    // insertion decides between 500 (the id generation threw), 409 (the id
    // is taken) and a write of the board with the task appended.
    ensures Admitted(cfg, sessions, h, body, now, stored) ==>
              var req := ParseRequest(Destructurable(body).value);
              FindColumn(stored.value, req.column).None? ==> r.reply == NotFound && r.written.None?
    ensures Admitted(cfg, sessions, h, body, now, stored) ==>
              var req := ParseRequest(Destructurable(body).value);
              var ci := FindColumn(stored.value, req.column);
              ci.Some? ==>
                var ins := Insert(stored.value, ci.value, TaskFields(req), today);
                && (ins.IdThrew? ==> r.reply == ServerError && r.written.None?)
                && (ins.Duplicate? ==> r.reply == Conflict && r.written.None?)
                && (ins.Inserted? ==> r.written == Some(ins.board) && r.reply == (if saved then Added(ins.id) else ServerError))
    // Conversely, each refusal and each write happens only where stated.
    ensures r.reply == NotFound ==>
              && r.written.None? && Admitted(cfg, sessions, h, body, now, stored)
              && FindColumn(stored.value, ParseRequest(Destructurable(body).value).column).None?
    ensures r.reply == Conflict ==> r.written.None? && Admitted(cfg, sessions, h, body, now, stored)
    ensures r.written.Some? ==> Admitted(cfg, sessions, h, body, now, stored)
    ensures r.reply.Added? ==> r.written.Some?
    ensures r.reply != Ok
  {
    var auth := Auth.IsAuthorized(cfg, sessions, h, now);
    if !auth.valid then Outcome(Unauthorized, auth.sessions, None)
    else
      match Destructurable(body)
      case None => Outcome(ServerError, auth.sessions, None)
      case Some(v) =>
        var req := ParseRequest(v);
        if !HasTitle(req) then Outcome(BadRequest, auth.sessions, None)
        else if stored.None? then Outcome(ServerError, auth.sessions, None)
        else
          var board := stored.value;
          match FindColumn(board, req.column)
          case None => Outcome(NotFound, auth.sessions, None)
          case Some(ci) =>
            match Insert(board, ci, TaskFields(req), today)
            case IdThrew => Outcome(ServerError, auth.sessions, None)
            case Duplicate(_) => Outcome(Conflict, auth.sessions, None)
            case Inserted(b', id) => Outcome(if saved then Added(id) else ServerError, auth.sessions, Some(b'))
  }

  /** The board store is consulted only after the request is authorized:
      an unauthorized call has the same outcome whatever the body and the
      stored board are. */
  lemma UnauthorizedIgnoresBoard(cfg: Auth.Config, sessions: Auth.Sessions, h: Http.Headers,
                                 b1: Http.Body, b2: Http.Body, now: int, today: string,
                                 s1: Option<Board>, s2: Option<Board>, saved: bool)
    requires !Auth.IsAuthorized(cfg, sessions, h, now).valid
    ensures Post(cfg, sessions, h, b1, now, today, s1, saved) == Post(cfg, sessions, h, b2, now, today, s2, false)
  {
  }
}

=== FILE: board_move.dfy ===
/** `POST /api/board/move` (app/api/board/move/route.ts): authorize, read
    `{ taskId, toColumn }`, find the task (first column holding it, first
    task in that column) and the target column, filter every task with the
    id out of the source column, stamp the found task's `updatedAt` and
    append it to the target column, and save the board. */
module BoardMove {
  import opened Wrappers
  import opened Json
  import opened Types
  import Auth
  import Http
  import opened BoardRoutes

  // -----------------------------------------------------------------------
  // The board transformation

  /** Lines 74-83: the task at `(from, j)`, which carries `id`, leaves
      column `from` together with every other task of that column carrying
      the same id, and is appended, stamped, to column `to`. */
  function Move(b: Board, from: nat, j: nat, to: nat, id: Value, today: string): (b': Board)
    requires from < |b| && to < |b| && j < |b[from].tasks|
    ensures |b'| == |b|
    ensures forall k :: 0 <= k < |b| ==> b'[k].id == b[k].id && b'[k].title == b[k].title && b'[k].emoji == b[k].emoji
    ensures forall k :: 0 <= k < |b| && k != from && k != to ==> b'[k] == b[k]
    ensures |b'[to].tasks| >= 1 && b'[to].tasks[|b'[to].tasks| - 1] == Touch(b[from].tasks[j], today)
    // Between two different columns: the source loses every task with the
    // id, and the target keeps its tasks and gains the stamped one.
    ensures from != to ==> b'[from].tasks == RemoveId(b[from].tasks, id)
    ensures from != to ==> b'[to].tasks == b[to].tasks + [Touch(b[from].tasks[j], today)]
  {
    var moved := Touch(b[from].tasks[j], today);
    var removed := WithTasks(b, from, RemoveId(b[from].tasks, id));
    WithTasks(removed, to, removed[to].tasks + [moved])
  }

  /** Nothing but tasks carrying the id moves: in every column the tasks
      without the id are exactly the ones that were there, in order. */
  lemma MoveKeepsOthers(b: Board, from: nat, j: nat, to: nat, id: Value, today: string)
    requires from < |b| && to < |b| && j < |b[from].tasks| && HasId(b[from].tasks[j], id)
    ensures forall k :: 0 <= k < |b| ==>
              RemoveId(Move(b, from, j, to, id, today)[k].tasks, id) == RemoveId(b[k].tasks, id)
  {
    var b' := Move(b, from, j, to, id, today);
    var moved := Touch(b[from].tasks[j], today);
    forall k | 0 <= k < |b|
      ensures RemoveId(b'[k].tasks, id) == RemoveId(b[k].tasks, id)
    {
      if k == to && k == from {
        AppendMatching(RemoveId(b[k].tasks, id), moved, id);
        RemoveIdIdempotent(b[k].tasks, id);
      } else if k == to {
        AppendMatching(b[k].tasks, moved, id);
      } else if k == from {
        RemoveIdIdempotent(b[k].tasks, id);
      }
    }
  }

  /** Moving a task within its own column filters the column and puts the
      stamped task last. */
  lemma MoveWithinColumn(b: Board, i: nat, j: nat, id: Value, today: string)
    requires i < |b| && j < |b[i].tasks|
    ensures Move(b, i, j, i, id, today)[i].tasks == RemoveId(b[i].tasks, id) + [Touch(b[i].tasks[j], today)]
  {
  }

  /** The move loses every other task of the source column with the same
      id and adds one: the board shrinks by the source column's extra
      matches, and the id's count likewise. */
  lemma MoveCounts(b: Board, from: nat, j: nat, to: nat, id: Value, today: string)
    requires from < |b| && to < |b| && j < |b[from].tasks| && HasId(b[from].tasks[j], id)
    ensures TaskCount(Move(b, from, j, to, id, today)) == TaskCount(b) - Matches(b[from].tasks, id) + 1
    ensures CountId(Move(b, from, j, to, id, today), id) == CountId(b, id) - Matches(b[from].tasks, id) + 1
  {
    var moved := Touch(b[from].tasks[j], today);
    var removed := WithTasks(b, from, RemoveId(b[from].tasks, id));
    TaskCountWithTasks(b, from, RemoveId(b[from].tasks, id));
    TaskCountWithTasks(removed, to, removed[to].tasks + [moved]);
    CountIdWithTasks(b, from, RemoveId(b[from].tasks, id), id);
    CountIdWithTasks(removed, to, removed[to].tasks + [moved], id);
    AppendMatching(removed[to].tasks, moved, id);
    assert Matches(RemoveId(b[from].tasks, id), id) == 0;
  }

  /** With ids unique on the board a move keeps every task: the count is
      unchanged and the id is still held by exactly one task, the last of
      the target column, stamped with today's date. */
  lemma MoveUniqueTask(b: Board, from: nat, j: nat, to: nat, id: Value, today: string)
    requires from < |b| && to < |b| && j < |b[from].tasks| && HasId(b[from].tasks[j], id)
    requires CountId(b, id) == 1
    ensures TaskCount(Move(b, from, j, to, id, today)) == TaskCount(b)
    ensures CountId(Move(b, from, j, to, id, today), id) == 1
    ensures var ts := Move(b, from, j, to, id, today)[to].tasks;
            HasId(ts[|ts| - 1], id) && StampedOn(ts[|ts| - 1], today)
  {
    MoveCounts(b, from, j, to, id, today);
    CountIdAtLeastMatches(b, from, id);
  }

  /** A column's matches are part of the board's. */
  lemma {:induction false} CountIdAtLeastMatches(b: Board, i: nat, id: Value)
    requires i < |b|
    ensures Matches(b[i].tasks, id) <= CountId(b, id)
    decreases |b|
  {
    assert CountId(b, id) == Matches(b[0].tasks, id) + CountId(b[1..], id);
    if i > 0 {
      assert b[1..][i - 1] == b[i];
      CountIdAtLeastMatches(b[1..], i - 1, id);
    }
  }

  // -----------------------------------------------------------------------
  // The request handler

  /** The body's `taskId` and `toColumn`, possibly absent. */
  datatype MoveRequest = MoveRequest(taskId: Option<Value>, toColumn: Option<Value>)

  /** `const { taskId, toColumn } = body`: only an object supplies the
      fields, as its own entries; any other non-null body leaves both
      undefined. */
  function ParseRequest(v: Value): (req: MoveRequest)
    requires !v.Null?
    ensures v.Obj? ==> req.taskId == (if "taskId" in v.fields then Some(v.fields["taskId"]) else None)
    ensures v.Obj? ==> req.toColumn == (if "toColumn" in v.fields then Some(v.fields["toColumn"]) else None)
    ensures !v.Obj? ==> req.taskId.None? && req.toColumn.None?
  {
    MoveRequest(Member(v, "taskId"), Member(v, "toColumn"))
  }

  /** Both fields are present and truthy. */
  predicate Supplied(req: MoveRequest) {
    IsSet(req.taskId) && IsSet(req.toColumn)
  }

  /** The request is authorized, its body destructures into supplied
      fields, and the board could be read: lines 23-43 let it through. */
  predicate Admitted(cfg: Auth.Config, sessions: Auth.Sessions, h: Http.Headers, body: Http.Body,
                     now: int, stored: Option<Board>) {
    && Auth.IsAuthorized(cfg, sessions, h, now).valid
    && Destructurable(body).Some?
    && Supplied(ParseRequest(Destructurable(body).value))
    && stored.Some?
  }

  /** `POST /api/board/move`. */
  function Post(cfg: Auth.Config, sessions: Auth.Sessions, h: Http.Headers, body: Http.Body,
                now: int, today: string, stored: Option<Board>, saved: bool): (r: Outcome)
    ensures r.sessions == Auth.IsAuthorized(cfg, sessions, h, now).sessions
    ensures r.reply == Unauthorized <==> !Auth.IsAuthorized(cfg, sessions, h, now).valid
    ensures r.reply == Unauthorized ==> r.written.None?
    // A missing or falsy field is a bad request.
    ensures Auth.IsAuthorized(cfg, sessions, h, now).valid && Destructurable(body).Some?
            && !Supplied(ParseRequest(Destructurable(body).value))
            ==> r.reply == BadRequest && r.written.None?
    // A body that cannot be destructured, or a board that cannot be read,
    // ends in the catch-all 500 with nothing written.
    ensures Auth.IsAuthorized(cfg, sessions, h, now).valid
            && (Destructurable(body).None?
                || (Supplied(ParseRequest(Destructurable(body).value)) && stored.None?))
            ==> r.reply == ServerError && r.written.None?
    // Once admitted: an unknown task or column is not found, with nothing
    // written; otherwise the board with the task moved is written.
    ensures Admitted(cfg, sessions, h, body, now, stored) ==>
              var req := ParseRequest(Destructurable(body).value);
              (Locate(stored.value, req.taskId.value).None? || FindColumn(stored.value, req.toColumn.value).None?)
              ==> r.reply == NotFound && r.written.None?
    ensures Admitted(cfg, sessions, h, body, now, stored) ==>
              var req := ParseRequest(Destructurable(body).value);
              var at := Locate(stored.value, req.taskId.value);
              var to := FindColumn(stored.value, req.toColumn.value);
              at.Some? && to.Some? ==>
                && r.written == Some(Move(stored.value, at.value.0, at.value.1, to.value, req.taskId.value, today))
                && r.reply == (if saved then Ok else ServerError)
    // Conversely, a 404 means the task or the column is unknown, and
    // anything written is the stored board with the located task moved.
    ensures r.reply == NotFound ==>
              && r.written.None? && Admitted(cfg, sessions, h, body, now, stored)
              && var req := ParseRequest(Destructurable(body).value);
                 (!OnBoard(stored.value, req.taskId.value)
                  || FindColumn(stored.value, req.toColumn.value).None?)
    ensures r.written.Some? ==> Admitted(cfg, sessions, h, body, now, stored)
    ensures r.reply == Ok ==> r.written.Some?
    ensures r.reply != Conflict && !r.reply.Added?
  {
    var auth := Auth.IsAuthorized(cfg, sessions, h, now);
    if !auth.valid then Outcome(Unauthorized, auth.sessions, None)
    else
      match Destructurable(body)
      case None => Outcome(ServerError, auth.sessions, None)
      case Some(v) =>
        var req := ParseRequest(v);
        if !Supplied(req) then Outcome(BadRequest, auth.sessions, None)
        else if stored.None? then Outcome(ServerError, auth.sessions, None)
        else
          var board := stored.value;
          match Locate(board, req.taskId.value)
          case None => Outcome(NotFound, auth.sessions, None)
          case Some(at) =>
            match FindColumn(board, req.toColumn.value)
            case None => Outcome(NotFound, auth.sessions, None)
            case Some(to) =>
              var b' := Move(board, at.0, at.1, to, req.taskId.value, today);
              Outcome(if saved then Ok else ServerError, auth.sessions, Some(b'))
  }

  /** A move that is written, on a board whose ids are unique, keeps the
      number of tasks and leaves the id on exactly one task. */
  lemma WrittenMoveKeepsTasks(cfg: Auth.Config, sessions: Auth.Sessions, h: Http.Headers, body: Http.Body,
                              now: int, today: string, stored: Option<Board>, saved: bool)
    requires Post(cfg, sessions, h, body, now, today, stored, saved).written.Some?
    requires forall id :: OnBoard(stored.value, id) ==> CountId(stored.value, id) == 1
    ensures var written := Post(cfg, sessions, h, body, now, today, stored, saved).written.value;
            TaskCount(written) == TaskCount(stored.value)
  {
    var req := ParseRequest(Destructurable(body).value);
    var at := Locate(stored.value, req.taskId.value).value;
    assert OnBoard(stored.value, req.taskId.value);
    MoveUniqueTask(stored.value, at.0, at.1, FindColumn(stored.value, req.toColumn.value).value, req.taskId.value, today);
  }
}

=== FILE: board_update.dfy ===
/** `POST /api/board/update` (app/api/board/update/route.ts): authorize,
    read `{ taskId, updates }`, find the first task with the id (first
    column holding it, first task in that column) and replace it by the
    merge of the task, the updates without `id` and `createdAt`, and a new
    `updatedAt`; then save the board. */
module BoardUpdate {
  import opened Wrappers
  import opened Json
  import opened Types
  import Auth
  import Http
  import opened BoardRoutes

  /** The fields an update may not change. */
  const PROTECTED: set<string> := {"id", "createdAt"}

  // -----------------------------------------------------------------------
  // The merge

  /** `{ ...task, ...safeUpdates, updatedAt: today }` where `safeUpdates`
      is the rest of the update's entries `fields` without `id` and
      `createdAt` (lines 49-54). */
  function Merge(t: Task, fields: map<string, Value>, today: string): (t': Task)
    // id and createdAt are exactly as they were.
    ensures forall k :: k in PROTECTED ==> (k in t' <==> k in t)
    ensures forall k :: k in PROTECTED && k in t ==> t'[k] == t[k]
    // updatedAt is today, whatever the update said.
    ensures "updatedAt" in t' && t'["updatedAt"] == Str(today)
    // Any other field: the update's value if it has one, else the task's.
    ensures forall k :: k !in PROTECTED && k != "updatedAt" ==> (k in t' <==> k in t || k in fields)
    ensures forall k :: k !in PROTECTED && k != "updatedAt" && k in fields ==> t'[k] == fields[k]
    ensures forall k :: k !in PROTECTED && k != "updatedAt" && k in t && k !in fields ==> t'[k] == t[k]
  {
    (t + (fields - PROTECTED))["updatedAt" := Str(today)]
  }

  /** The merge keeps the task's identity: it answers to exactly the ids it
      answered to before. */
  lemma MergeKeepsId(t: Task, fields: map<string, Value>, today: string, id: Value)
    ensures HasId(Merge(t, fields, today), id) <==> HasId(t, id)
  {
  }

  /** Applying the same update twice on the same day is applying it once. */
  lemma MergeIdempotent(t: Task, fields: map<string, Value>, today: string)
    ensures Merge(Merge(t, fields, today), fields, today) == Merge(t, fields, today)
  {
    var once := Merge(t, fields, today);
    var twice := Merge(once, fields, today);
    assert twice.Keys == once.Keys;
    forall k | k in once
      ensures twice[k] == once[k]
    {
    }
  }

  /** The board with the task at `(i, j)` merged; nothing else changes. */
  function Apply(b: Board, i: nat, j: nat, updates: Value, today: string): (b': Board)
    requires i < |b| && j < |b[i].tasks|
    ensures |b'| == |b| && |b'[i].tasks| == |b[i].tasks|
    ensures forall k :: 0 <= k < |b| && k != i ==> b'[k] == b[k]
    ensures forall l :: 0 <= l < |b[i].tasks| && l != j ==> b'[i].tasks[l] == b[i].tasks[l]
    ensures b'[i].tasks[j] == Merge(b[i].tasks[j], SpreadEntries(updates), today)
    ensures b'[i].id == b[i].id && b'[i].title == b[i].title && b'[i].emoji == b[i].emoji
  {
    WithTasks(b, i, b[i].tasks[j := Merge(b[i].tasks[j], SpreadEntries(updates), today)])
  }

  /** An update neither adds nor removes tasks, and every id occurs on the
      board as often as before. */
  lemma ApplyKeepsCounts(b: Board, i: nat, j: nat, updates: Value, today: string, id: Value)
    requires i < |b| && j < |b[i].tasks|
    ensures TaskCount(Apply(b, i, j, updates, today)) == TaskCount(b)
    ensures CountId(Apply(b, i, j, updates, today), id) == CountId(b, id)
  {
    var ts := b[i].tasks;
    var ts' := ts[j := Merge(ts[j], SpreadEntries(updates), today)];
    TaskCountWithTasks(b, i, ts');
    CountIdWithTasks(b, i, ts', id);
    MatchesPointwise(ts, ts', id);
  }

  /** Lists that agree on every element's ids have the same matches. */
  lemma {:induction false} MatchesPointwise(ts: seq<Task>, us: seq<Task>, id: Value)
    requires |ts| == |us|
    requires forall l :: 0 <= l < |ts| ==> (HasId(us[l], id) <==> HasId(ts[l], id))
    ensures Matches(us, id) == Matches(ts, id)
    decreases |ts|
  {
    if ts != [] {
      MatchesPointwise(ts[1..], us[1..], id);
    }
  }

  // -----------------------------------------------------------------------
  // The request handler

  /** The body's `taskId` and `updates`, possibly absent. */
  datatype UpdateRequest = UpdateRequest(taskId: Option<Value>, updates: Option<Value>)

  /** `const { taskId, updates } = body`: only an object supplies the
      fields, as its own entries; any other non-null body leaves both
      undefined. */
  function ParseRequest(v: Value): (req: UpdateRequest)
    requires !v.Null?
    ensures v.Obj? ==> req.taskId == (if "taskId" in v.fields then Some(v.fields["taskId"]) else None)
    ensures v.Obj? ==> req.updates == (if "updates" in v.fields then Some(v.fields["updates"]) else None)
    ensures !v.Obj? ==> req.taskId.None? && req.updates.None?
  {
    UpdateRequest(Member(v, "taskId"), Member(v, "updates"))
  }

  /** Both fields are present and truthy. */
  predicate Supplied(req: UpdateRequest) {
    IsSet(req.taskId) && IsSet(req.updates)
  }

  /** The request is authorized, its body destructures into supplied
      fields, and the board could be read: lines 21-41 let it through. */
  predicate Admitted(cfg: Auth.Config, sessions: Auth.Sessions, h: Http.Headers, body: Http.Body,
                     now: int, stored: Option<Board>) {
    && Auth.IsAuthorized(cfg, sessions, h, now).valid
    && Destructurable(body).Some?
    && Supplied(ParseRequest(Destructurable(body).value))
    && stored.Some?
  }

  /** `POST /api/board/update`. */
  function Post(cfg: Auth.Config, sessions: Auth.Sessions, h: Http.Headers, body: Http.Body,
                now: int, today: string, stored: Option<Board>, saved: bool): (r: Outcome)
    ensures r.sessions == Auth.IsAuthorized(cfg, sessions, h, now).sessions
    ensures r.reply == Unauthorized <==> !Auth.IsAuthorized(cfg, sessions, h, now).valid
    ensures r.reply == Unauthorized ==> r.written.None?
    // A missing or falsy field is a bad request.
    ensures Auth.IsAuthorized(cfg, sessions, h, now).valid && Destructurable(body).Some?
            && !Supplied(ParseRequest(Destructurable(body).value))
            ==> r.reply == BadRequest && r.written.None?
    // A body that cannot be destructured, or a board that cannot be read,
    // ends in the catch-all 500 with nothing written.
    ensures Auth.IsAuthorized(cfg, sessions, h, now).valid
            && (Destructurable(body).None?
                || (Supplied(ParseRequest(Destructurable(body).value)) && stored.None?))
            ==> r.reply == ServerError && r.written.None?
    // Once admitted: an id on no task is not found, with nothing written;
    // otherwise the board with the first matching task merged is written.
    ensures Admitted(cfg, sessions, h, body, now, stored) ==>
              var req := ParseRequest(Destructurable(body).value);
              Locate(stored.value, req.taskId.value).None? ==> r.reply == NotFound && r.written.None?
    ensures Admitted(cfg, sessions, h, body, now, stored) ==>
              var req := ParseRequest(Destructurable(body).value);
              var at := Locate(stored.value, req.taskId.value);
              at.Some? ==>
                && r.written == Some(Apply(stored.value, at.value.0, at.value.1, req.updates.value, today))
                && r.reply == (if saved then Ok else ServerError)
    // Conversely, a 404 means no task has the id, and a write happens only
    // for an admitted request.
    ensures r.reply == NotFound ==>
              && r.written.None? && Admitted(cfg, sessions, h, body, now, stored)
              && !OnBoard(stored.value, ParseRequest(Destructurable(body).value).taskId.value)
    ensures r.written.Some? ==> Admitted(cfg, sessions, h, body, now, stored)
    ensures r.reply == Ok ==> r.written.Some?
    ensures r.reply != Conflict && !r.reply.Added?
  {
    var auth := Auth.IsAuthorized(cfg, sessions, h, now);
    if !auth.valid then Outcome(Unauthorized, auth.sessions, None)
    else
      match Destructurable(body)
      case None => Outcome(ServerError, auth.sessions, None)
      case Some(v) =>
        var req := ParseRequest(v);
        if !Supplied(req) then Outcome(BadRequest, auth.sessions, None)
        else if stored.None? then Outcome(ServerError, auth.sessions, None)
        else
          match Locate(stored.value, req.taskId.value)
          case None => Outcome(NotFound, auth.sessions, None)
          case Some(at) =>
            var b' := Apply(stored.value, at.0, at.1, req.updates.value, today);
            Outcome(if saved then Ok else ServerError, auth.sessions, Some(b'))
  }

  /** An update that is written changes only the located task: it keeps
      the task's id and creation date, and the id can still be found at the
      same place. */
  lemma WrittenUpdateKeepsIdentity(cfg: Auth.Config, sessions: Auth.Sessions, h: Http.Headers, body: Http.Body,
                                   now: int, today: string, stored: Option<Board>, saved: bool)
    requires Post(cfg, sessions, h, body, now, today, stored, saved).written.Some?
    ensures var req := ParseRequest(Destructurable(body).value);
            var written := Post(cfg, sessions, h, body, now, today, stored, saved).written.value;
            && Locate(written, req.taskId.value) == Locate(stored.value, req.taskId.value)
            && TaskCount(written) == TaskCount(stored.value)
  {
    var req := ParseRequest(Destructurable(body).value);
    var id := req.taskId.value;
    var at := Locate(stored.value, id).value;
    var b' := Apply(stored.value, at.0, at.1, req.updates.value, today);
    ApplyKeepsCounts(stored.value, at.0, at.1, req.updates.value, today, id);
    LocateAfterApply(stored.value, at.0, at.1, req.updates.value, today, id);
  }

  /** Merging a task never changes where an id is first found. */
  lemma LocateAfterApply(b: Board, i: nat, j: nat, updates: Value, today: string, id: Value)
    requires i < |b| && j < |b[i].tasks|
    ensures Locate(Apply(b, i, j, updates, today), id) == Locate(b, id)
  {
    var b' := Apply(b, i, j, updates, today);
    MergeKeepsId(b[i].tasks[j], SpreadEntries(updates), today, id);
    forall k | 0 <= k < |b|
      ensures forall l :: 0 <= l < |b[k].tasks| ==> (HasId(b'[k].tasks[l], id) <==> HasId(b[k].tasks[l], id))
    {
    }
    LocatePointwise(b, b', id);
  }

  /** Boards of the same shape whose tasks answer to the same ids locate
      every id at the same place. */
  lemma {:induction false} LocatePointwise(b: Board, c: Board, id: Value)
    requires |b| == |c|
    requires forall k :: 0 <= k < |b| ==> |c[k].tasks| == |b[k].tasks|
    requires forall k :: 0 <= k < |b| ==> forall l :: 0 <= l < |b[k].tasks| ==>
               (HasId(c[k].tasks[l], id) <==> HasId(b[k].tasks[l], id))
    ensures Locate(c, id) == Locate(b, id)
    decreases |b|
  {
    if b != [] {
      FindTaskPointwise(b[0].tasks, c[0].tasks, id);
      LocatePointwise(b[1..], c[1..], id);
    }
  }

  lemma {:induction false} FindTaskPointwise(ts: seq<Task>, us: seq<Task>, id: Value)
    requires |ts| == |us|
    requires forall l :: 0 <= l < |ts| ==> (HasId(us[l], id) <==> HasId(ts[l], id))
    ensures FindTask(us, id) == FindTask(ts, id)
    decreases |ts|
  {
    if ts != [] {
      FindTaskPointwise(ts[1..], us[1..], id);
    }
  }
}

=== FILE: http.dfy ===
/** What a route handler reads from its request: the headers it consults
    and the outcome of `request.json()`. */
module Http {
  import opened Wrappers
  import Json

  /** The headers the application reads; `headers.get` yields `null` (here
      `None`) for a header that was not sent. */
  datatype Headers = Headers(
    authorization: Option<string>,
    sessionToken: Option<string>,
    forwardedFor: Option<string>,
    realIp: Option<string>)

  /** The body as `request.json()` delivers it; `Malformed` when that
      promise rejects (no body, or text that is not JSON). */
  datatype Body = Malformed | Parsed(value: Json.Value)
}

=== FILE: json.dfy ===
/** JSON values as the route handlers see them after `request.json()`, and
    the handful of JavaScript operations they apply to them: truthiness,
    strict equality, property reads and object spread. An absent property
    (`undefined`) is `None` of an `Option<Value>`. */
module Json {
  import opened Wrappers
  import JsString

  datatype Value =
    | Null
    | Bool(b: bool)
    | Num(n: real)
    | Str(s: string)
    | Arr(items: seq<Value>)
    | Obj(fields: map<string, Value>)

  /** JavaScript truthiness: `false`, `0`, `""` and `null` are falsy, every
      array and object is truthy. (JSON has no `NaN`.) */
  predicate Truthy(v: Value) {
    match v
    case Null => false
    case Bool(b) => b
    case Num(n) => n != 0.0
    case Str(s) => s != []
    case Arr(_) => true
    case Obj(_) => true
  }

  /** Truthiness of a possibly-absent property; `undefined` is falsy. */
  predicate IsSet(o: Option<Value>) {
    o.Some? && Truthy(o.value)
  }

  /** `a === b`. Primitives compare by value. Arrays and objects compare by
      identity; every comparison the application makes is between values of
      two separate parses (the request body and the stored board), so two
      arrays or objects are never identical here. */
  predicate StrictEquals(a: Value, b: Value) {
    match a
    case Null => b.Null?
    case Bool(x) => b.Bool? && b.b == x
    case Num(x) => b.Num? && b.n == x
    case Str(x) => b.Str? && b.s == x
    case Arr(_) => false
    case Obj(_) => false
  }

  /** A string is strictly equal exactly to the same string. */
  lemma StrictEqualsStr(a: Value, s: string)
    ensures StrictEquals(a, Str(s)) <==> a == Str(s)
  {
  }

  /** A canonical array index: `"0"` or decimal digits without a leading zero. */
  predicate IsIndexKey(key: string) {
    |key| >= 1 && JsString.AllDecimal(key) && (key[0] != '0' || |key| == 1)
  }

  /** The property read `v[key]` on a non-null value. Strings and arrays
      expose `length` and their indices; objects their own entries; the
      remaining properties of primitives are functions, which JSON never
      holds, so they read as `undefined`. Reading a property of `null`
      throws, so it is excluded here and handled by the callers. */
  function Member(v: Value, key: string): (r: Option<Value>)
    requires !v.Null?
    ensures v.Obj? ==> (r.Some? <==> key in v.fields)
    ensures v.Obj? && key in v.fields ==> r == Some(v.fields[key])
    ensures (v.Bool? || v.Num?) ==> r.None?
  {
    match v
    case Obj(m) => if key in m then Some(m[key]) else None
    case Arr(xs) =>
      if key == "length" then Some(Num(|xs| as real))
      else if IsIndexKey(key) && JsString.DigitsValue(key, 10) < |xs| then Some(xs[JsString.DigitsValue(key, 10)])
      else None
    case Str(s) =>
      if key == "length" then Some(Num(|s| as real))
      else if IsIndexKey(key) && JsString.DigitsValue(key, 10) < |s| then Some(Str([s[JsString.DigitsValue(key, 10)]]))
      else None
    case _ => None
  }

  /** The own enumerable entries `{ ...v }` copies: an object's entries,
      the indices of an array or string, nothing for other primitives. */
  function SpreadEntries(v: Value): (r: map<string, Value>)
    ensures v.Obj? ==> r == v.fields
    ensures v.Arr? ==> |r| == |v.items|
    ensures v.Str? ==> |r| == |v.s|
    ensures !v.Obj? && !v.Arr? && !v.Str? ==> r == map[]
  {
    match v
    case Obj(m) => m
    case Arr(xs) => IndexEntriesSize(xs); IndexEntries(xs)
    case Str(s) =>
      var chars := seq(|s|, i requires 0 <= i < |s| => Str([s[i]]));
      IndexEntriesSize(chars);
      IndexEntries(chars)
    case _ => map[]
  }

  /** The entries `"0" -> xs[0]`, `"1" -> xs[1]`, ... */
  function IndexEntries(xs: seq<Value>): (r: map<string, Value>)
    ensures forall k :: k in r ==> IsIndexKey(k) && JsString.DigitsValue(k, 10) < |xs|
    decreases |xs|
  {
    if xs == [] then map[]
    else
      var n := |xs| - 1;
      JsString.DecimalValue(n);
      DecimalIsIndexKey(n);
      IndexEntries(xs[..n])[JsString.NatToDecimal(n) := xs[n]]
  }

  /** Every index of the sequence is an entry holding its element. */
  lemma {:induction false} IndexEntriesAt(xs: seq<Value>, i: nat)
    requires i < |xs|
    ensures JsString.NatToDecimal(i) in IndexEntries(xs)
    ensures IndexEntries(xs)[JsString.NatToDecimal(i)] == xs[i]
    decreases |xs|
  {
    var n := |xs| - 1;
    if i < n {
      if JsString.NatToDecimal(i) == JsString.NatToDecimal(n) {
        JsString.DecimalInjective(i, n);
      }
      IndexEntriesAt(xs[..n], i);
    }
  }

  /** One entry per element: the new key is never already present. */
  lemma {:induction false} IndexEntriesSize(xs: seq<Value>)
    ensures |IndexEntries(xs)| == |xs|
    decreases |xs|
  {
    if xs != [] {
      var n := |xs| - 1;
      JsString.DecimalValue(n);
      IndexEntriesSize(xs[..n]);
      assert JsString.NatToDecimal(n) !in IndexEntries(xs[..n]);
    }
  }

  /** Helper: a rendered number is a canonical index key. */
  lemma DecimalIsIndexKey(n: nat)
    ensures IsIndexKey(JsString.NatToDecimal(n))
  {
  }
}

=== FILE: jsstring.dfy ===
/** The JavaScript string primitives the application relies on, with the
    semantics ECMA-262 gives them: `trim`, `split` on a one-character
    separator, `startsWith`, `replace` of the first occurrence of a literal
    pattern, `parseInt` without an explicit radix, and the decimal rendering
    of a non-negative integer (as in a template literal). */
module JsString {
  import opened Wrappers
  import Seqs

  /** The WhiteSpace and LineTerminator code points of ECMA-262 (sections
      12.2 and 12.3): what `trim` removes and what `parseInt` skips. Tab,
      line feed, vertical tab, form feed and carriage return are the range
      U+0009..U+000D; U+2000..U+200A are the typographic spaces; the rest
      are space, no-break space, ogham space mark, line and paragraph
      separator, narrow no-break space, medium mathematical space,
      ideographic space and the byte order mark. */
  predicate IsWhitespace(c: char) {
    var n := c as int;
    (0x09 <= n <= 0x0D) || n == 0x20 || n == 0xA0 || n == 0x1680
    || (0x2000 <= n <= 0x200A) || n == 0x2028 || n == 0x2029 || n == 0x202F
    || n == 0x205F || n == 0x3000 || n == 0xFEFF
  }

  predicate AllWhitespace(s: string) {
    forall i :: 0 <= i < |s| ==> IsWhitespace(s[i])
  }

  /** Neither end of the string is whitespace. */
  predicate IsTrimmed(s: string) {
    s == [] || (!IsWhitespace(s[0]) && !IsWhitespace(s[|s| - 1]))
  }

  // ---------------------------------------------------------------------
  // trim

  /** Drops leading whitespace. */
  function TrimStart(s: string): (r: string)
    ensures |r| <= |s| && r == s[|s| - |r|..]
    ensures forall i :: 0 <= i < |s| - |r| ==> IsWhitespace(s[i])
    ensures r == [] || !IsWhitespace(r[0])
    ensures r == [] <==> AllWhitespace(s)
    decreases |s|
  {
    if |s| > 0 && IsWhitespace(s[0]) then TrimStart(s[1..]) else s
  }

  /** Drops trailing whitespace. */
  function TrimEnd(s: string): (r: string)
    ensures |r| <= |s| && r == s[..|r|]
    ensures forall i :: |r| <= i < |s| ==> IsWhitespace(s[i])
    ensures r == [] || !IsWhitespace(r[|r| - 1])
    ensures r == [] <==> AllWhitespace(s)
    decreases |s|
  {
    if |s| > 0 && IsWhitespace(s[|s| - 1]) then TrimEnd(s[..|s| - 1]) else s
  }

  /** `String.prototype.trim`. */
  function Trim(s: string): (r: string)
    ensures IsTrimmed(r)
    ensures |r| <= |s|
    ensures r == [] <==> AllWhitespace(s)
  {
    TrimEnd(TrimStart(s))
  }

  lemma {:induction false} TrimStartSkips(w: string, x: string)
    requires AllWhitespace(w)
    ensures TrimStart(w + x) == TrimStart(x)
    decreases |w|
  {
    if w != [] {
      var s := w + x;
      assert |s| > 0 && IsWhitespace(s[0]);
      assert s[1..] == w[1..] + x;
      calc {
        TrimStart(s);
        TrimStart(s[1..]);
        { TrimStartSkips(w[1..], x); }
        TrimStart(x);
      }
    } else {
      assert w + x == x;
    }
  }

  lemma {:induction false} TrimEndSkips(x: string, w: string)
    requires AllWhitespace(w)
    ensures TrimEnd(x + w) == TrimEnd(x)
    decreases |w|
  {
    if w != [] {
      var s := x + w;
      assert |s| > 0 && IsWhitespace(s[|s| - 1]);
      assert s[..|s| - 1] == x + w[..|w| - 1];
      calc {
        TrimEnd(s);
        TrimEnd(s[..|s| - 1]);
        { TrimEndSkips(x, w[..|w| - 1]); }
        TrimEnd(x);
      }
    } else {
      assert x + w == x;
    }
  }

  /** Trim removes exactly an all-whitespace prefix and suffix. */
  lemma TrimSplits(s: string) returns (lead: string, trail: string)
    ensures s == lead + Trim(s) + trail
    ensures AllWhitespace(lead) && AllWhitespace(trail)
  {
    var t := TrimStart(s);
    var m := TrimEnd(t);
    lead := LeadOf(s);
    trail := TrailOf(t);
    assert Trim(s) == m;
    calc {
      s;
      lead + (m + trail);
      { Seqs.Assoc(lead, m, trail); }
      lead + m + trail;
    }
  }

  /** What TrimStart drops. */
  function LeadOf(s: string): (lead: string)
    ensures AllWhitespace(lead)
    ensures s == lead + TrimStart(s)
  {
    var k := |s| - |TrimStart(s)|;
    assert s == s[..k] + s[k..];
    forall i | 0 <= i < k ensures IsWhitespace(s[..k][i]) {
      assert s[..k][i] == s[i];
    }
    s[..k]
  }

  /** What TrimEnd drops. */
  function TrailOf(s: string): (trail: string)
    ensures AllWhitespace(trail)
    ensures s == TrimEnd(s) + trail
  {
    var k := |TrimEnd(s)|;
    assert s == s[..k] + s[k..];
    forall i | 0 <= i < |s| - k ensures IsWhitespace(s[k..][i]) {
      assert s[k..][i] == s[k + i];
    }
    s[k..]
  }

  /** Trim introduces no character the input lacks. */
  lemma TrimInfix(s: string)
    ensures forall c :: c in Trim(s) ==> c in s
  {
    var t := TrimStart(s);
    var m := TrimEnd(t);
    assert m == Trim(s);
    forall c | c in m ensures c in s {
      var i :| 0 <= i < |m| && m[i] == c;
      assert m[i] == t[i];
      assert t[i] == s[|s| - |t| + i];
    }
  }

  /** Trim is characterised independently of its definition: any way of
      writing `s` as whitespace + trimmed middle + whitespace yields that
      middle. */
  lemma TrimUnique(s: string, lead: string, mid: string, trail: string)
    requires s == lead + mid + trail
    requires AllWhitespace(lead) && AllWhitespace(trail) && IsTrimmed(mid)
    ensures Trim(s) == mid
  {
    Seqs.Assoc(lead, mid, trail);
    TrimStartSkips(lead, mid + trail);
    if mid == [] {
      assert mid + trail == trail;
      TrimStartSkips(trail, []);
      assert trail + [] == trail;
    } else {
      TrimEndSkips(mid, trail);
    }
  }

  lemma TrimIdempotent(s: string)
    ensures Trim(Trim(s)) == Trim(s)
  {
    var t := Trim(s);
    assert t == [] + t + [];
    TrimUnique(t, [], t, []);
  }

  // ---------------------------------------------------------------------
  // split / join

  /** `s.split(sep)` for a one-character separator: the pieces between
      separators, including empty ones; `"".split(sep)` is `[""]`. */
  function Split(s: string, sep: char): (parts: seq<string>)
    ensures |parts| >= 1
    ensures forall i :: 0 <= i < |parts| ==> sep !in parts[i]
    decreases |s|
  {
    if s == [] then [[]]
    else
      var rest := Split(s[1..], sep);
      if s[0] == sep then [[]] + rest
      else [[s[0]] + rest[0]] + rest[1..]
  }

  /** `parts.join(sep)`. */
  function Join(parts: seq<string>, sep: char): string
    requires |parts| >= 1
    decreases |parts|
  {
    if |parts| == 1 then parts[0] else parts[0] + [sep] + Join(parts[1..], sep)
  }

  /** Splitting loses nothing: the pieces join back to the input. */
  lemma {:induction false} JoinSplit(s: string, sep: char)
    ensures Join(Split(s, sep), sep) == s
    decreases |s|
  {
    if s != [] {
      JoinSplit(s[1..], sep);
      var rest := Split(s[1..], sep);
      if s[0] != sep {
        if |rest| == 1 {
          assert [s[0]] + rest[0] == s;
        } else {
          calc {
            Join([[s[0]] + rest[0]] + rest[1..], sep);
            [s[0]] + rest[0] + [sep] + Join(rest[1..], sep);
            [s[0]] + (rest[0] + [sep] + Join(rest[1..], sep));
            [s[0]] + Join(rest, sep);
            s;
          }
        }
      } else {
        assert ([[]] + rest)[1..] == rest;
      }
    }
  }

  lemma {:induction false} SplitWithoutSeparator(x: string, sep: char)
    requires sep !in x
    ensures Split(x, sep) == [x]
    decreases |x|
  {
    if x != [] {
      SplitWithoutSeparator(x[1..], sep);
      assert [x[0]] + x[1..] == x;
    }
  }

  lemma {:induction false} SplitAtSeparator(x: string, sep: char, y: string)
    requires sep !in x
    ensures Split(x + [sep] + y, sep) == [x] + Split(y, sep)
    decreases |x|
  {
    if x == [] {
      assert (x + [sep] + y)[1..] == y;
    } else {
      assert (x + [sep] + y)[1..] == x[1..] + [sep] + y;
      SplitAtSeparator(x[1..], sep, y);
      assert [x[0]] + x[1..] == x;
    }
  }

  /** Joining separator-free pieces and splitting again gives the pieces back. */
  lemma {:induction false} SplitJoin(parts: seq<string>, sep: char)
    requires |parts| >= 1
    requires forall i :: 0 <= i < |parts| ==> sep !in parts[i]
    ensures Split(Join(parts, sep), sep) == parts
    decreases |parts|
  {
    if |parts| == 1 {
      SplitWithoutSeparator(parts[0], sep);
    } else {
      SplitJoin(parts[1..], sep);
      SplitAtSeparator(parts[0], sep, Join(parts[1..], sep));
      assert [parts[0]] + parts[1..] == parts;
    }
  }

  /** The first piece of a split is the text before the first separator. */
  lemma {:induction false} SplitFirstPiece(s: string, sep: char)
    ensures StartsWith(s, Split(s, sep)[0])
    ensures |Split(s, sep)[0]| < |s| ==> s[|Split(s, sep)[0]|] == sep
    decreases |s|
  {
    if s != [] {
      SplitFirstPiece(s[1..], sep);
    }
  }

  // ---------------------------------------------------------------------
  // startsWith / replace

  /** `s.startsWith(prefix)`. */
  predicate StartsWith(s: string, prefix: string) {
    |prefix| <= |s| && s[..|prefix|] == prefix
  }

  predicate OccursAt(s: string, pat: string, i: int) {
    0 <= i && i + |pat| <= |s| && s[i..i + |pat|] == pat
  }

  /** `s.indexOf(pat, k)`: the first occurrence at or after `k`. */
  function IndexOfFrom(s: string, pat: string, k: nat): (r: Option<nat>)
    ensures r.Some? ==> k <= r.value && OccursAt(s, pat, r.value)
    ensures r.Some? ==> forall j :: k <= j < r.value ==> !OccursAt(s, pat, j)
    ensures r.None? ==> forall j :: k <= j ==> !OccursAt(s, pat, j)
    decreases |s| - k
  {
    if k + |pat| > |s| then None
    else if s[k..k + |pat|] == pat then Some(k)
    else IndexOfFrom(s, pat, k + 1)
  }

  /** `s.replace(pat, "")` with a literal pattern: only the first
      occurrence is removed. */
  function RemoveFirst(s: string, pat: string): (r: string)
    ensures (exists i :: OccursAt(s, pat, i)) ==>
              exists i :: && OccursAt(s, pat, i)
                          && (forall j :: 0 <= j < i ==> !OccursAt(s, pat, j))
                          && r == s[..i] + s[i + |pat|..]
    ensures (exists i :: OccursAt(s, pat, i)) ==> |r| == |s| - |pat|
    ensures (forall i :: !OccursAt(s, pat, i)) ==> r == s
  {
    match IndexOfFrom(s, pat, 0)
    case Some(i) => s[..i] + s[i + |pat|..]
    case None => s
  }

  lemma RemoveFirstOfPrefixed(pat: string, d: string)
    ensures RemoveFirst(pat + d, pat) == d
  {
    assert OccursAt(pat + d, pat, 0);
    assert (pat + d)[|pat|..] == d;
  }

  // ---------------------------------------------------------------------
  // parseInt and decimal rendering

  /** A digit in radix 10 or 16 (either letter case). */
  predicate IsDigitIn(c: char, radix: nat) {
    || '0' <= c <= '9'
    || (radix == 16 && ('a' <= c <= 'f' || 'A' <= c <= 'F'))
  }

  function DigitValue(c: char): nat {
    if '0' <= c <= '9' then c as int - '0' as int
    else if 'a' <= c <= 'f' then c as int - 'a' as int + 10
    else if 'A' <= c <= 'F' then c as int - 'A' as int + 10
    else 0
  }

  /** The longest prefix of digits in the given radix. */
  function DigitPrefix(s: string, radix: nat): (r: string)
    ensures |r| <= |s| && r == s[..|r|]
    ensures forall i :: 0 <= i < |r| ==> IsDigitIn(r[i], radix)
    ensures |r| < |s| ==> !IsDigitIn(s[|r|], radix)
    decreases |s|
  {
    if |s| > 0 && IsDigitIn(s[0], radix) then [s[0]] + DigitPrefix(s[1..], radix) else []
  }

  lemma DigitPrefixWhole(d: string)
    requires AllDecimal(d)
    ensures DigitPrefix(d, 10) == d
  {
    var r := DigitPrefix(d, 10);
    if |r| < |d| {
      assert IsDigitIn(d[|r|], 10);
    }
  }

  /** The number a digit string denotes, most significant digit first. */
  function DigitsValue(ds: string, radix: nat): nat
    decreases |ds|
  {
    if ds == [] then 0 else DigitsValue(ds[..|ds| - 1], radix) * radix + DigitValue(ds[|ds| - 1])
  }

  /** `parseInt(s)` with no radix argument: skip whitespace, take an
      optional sign, switch to radix 16 after a `0x`/`0X` prefix, read the
      longest run of digits; no digit at all is `NaN` (here `None`).
      Numbers are unbounded. */
  function ParseInt(s: string): (r: Option<int>)
    ensures TrimStart(s) == [] ==> r.None?
    ensures r.Some? && r.value < 0 ==> TrimStart(s)[0] == '-'
    ensures var t := TrimStart(s);
            |t| > 0 && '0' <= t[0] <= '9' && !(|t| >= 2 && t[0] == '0' && (t[1] == 'x' || t[1] == 'X'))
            ==> r.Some? && r.value >= 0
  {
    DigitStartParses(TrimStart(s));
    ParseSigned(TrimStart(s))
  }

  /** Text opening with a decimal digit, not as a `0x` prefix, is a number. */
  lemma DigitStartParses(t: string)
    ensures |t| > 0 && '0' <= t[0] <= '9' && !(|t| >= 2 && t[0] == '0' && (t[1] == 'x' || t[1] == 'X'))
            ==> ParseSigned(t).Some? && ParseSigned(t).value >= 0
  {
    if |t| > 0 && '0' <= t[0] <= '9' {
      assert ParseSigned(t) == ParseMagnitude(t);
      assert !(|t| >= 2 && t[0] == '0' && (t[1] == 'x' || t[1] == 'X')) ==> DigitPrefix(t, 10) != [];
    }
  }

  /** An optional sign, then the magnitude. */
  function ParseSigned(t: string): Option<int> {
    if |t| > 0 && t[0] == '-' then
      match ParseMagnitude(t[1..])
      case Some(m) => Some(-m)
      case None => None
    else if |t| > 0 && t[0] == '+' then ParseMagnitude(t[1..])
    else ParseMagnitude(t)
  }

  /** The digits after an optional `0x`/`0X` prefix. */
  function ParseMagnitude(u: string): (r: Option<int>)
    ensures r.Some? ==> r.value >= 0
  {
    var hex := |u| >= 2 && u[0] == '0' && (u[1] == 'x' || u[1] == 'X');
    var radix: nat := if hex then 16 else 10;
    var digits := DigitPrefix(if hex then u[2..] else u, radix);
    if digits == [] then None else Some(DigitsValue(digits, radix))
  }

  function DecimalChar(d: nat): (c: char)
    requires d < 10
    ensures '0' <= c <= '9' && DigitValue(c) == d
  {
    ('0' as int + d) as char
  }

  predicate AllDecimal(s: string) {
    forall i :: 0 <= i < |s| ==> '0' <= s[i] <= '9'
  }

  /** The decimal rendering of a non-negative integer, as `${n}` gives it. */
  function NatToDecimal(n: nat): (r: string)
    ensures |r| >= 1 && AllDecimal(r)
    ensures r[0] == '0' <==> n == 0
    decreases n
  {
    if n < 10 then [DecimalChar(n)] else NatToDecimal(n / 10) + [DecimalChar(n % 10)]
  }

  lemma {:induction false} DecimalValue(n: nat)
    ensures DigitsValue(NatToDecimal(n), 10) == n
    decreases n
  {
    if n >= 10 {
      var r := NatToDecimal(n);
      assert r[..|r| - 1] == NatToDecimal(n / 10);
      DecimalValue(n / 10);
    }
  }

  /** Distinct numbers render to distinct strings. */
  lemma DecimalInjective(i: nat, j: nat)
    requires NatToDecimal(i) == NatToDecimal(j)
    ensures i == j
  {
    DecimalValue(i);
    DecimalValue(j);
  }

  /** parseInt reads back what NatToDecimal writes. */
  lemma ParseIntOfDecimal(n: nat)
    ensures ParseInt(NatToDecimal(n)) == Some(n)
  {
    var d := NatToDecimal(n);
    DecimalUntrimmed(d);
    assert ParseSigned(d) == ParseMagnitude(d);
    MagnitudeOfDecimal(n);
  }

  lemma DecimalUntrimmed(d: string)
    requires |d| >= 1 && AllDecimal(d)
    ensures TrimStart(d) == d
  {
    assert !IsWhitespace(d[0]);
  }

  lemma MagnitudeOfDecimal(n: nat)
    ensures ParseMagnitude(NatToDecimal(n)) == Some(n)
  {
    var d := NatToDecimal(n);
    if n == 0 {
      assert d == ['0'];
    }
    DigitPrefixWhole(d);
    DecimalValue(n);
  }
}

=== FILE: kanban.dfy ===
/** The board view's drag-and-drop (components/KanbanBoard.tsx, `handleDrop`)
    and its header counters. The view keeps the board in component state;
    here the state before a drop is the input `prev` and the function
    returns the state after it. Dates are the input `today`. */
module Kanban {
  import opened Wrappers
  import opened Json
  import opened Types
  import opened BoardRoutes

  // -----------------------------------------------------------------------
  // Dropping a task on a column

  /** The last task of the list with the id: the filter in `handleDrop`
      overwrites its captured task at every match, so the last one wins. */
  function LastWith(ts: seq<Task>, id: Value): (r: Option<Task>)
    ensures r.None? <==> !Holds(ts, id)
    ensures r.Some? ==> exists j :: 0 <= j < |ts| && ts[j] == r.value && HasId(ts[j], id)
                                    && forall l :: j < l < |ts| ==> !HasId(ts[l], id)
    decreases |ts|
  {
    if ts == [] then None
    else
      var n := |ts| - 1;
      if HasId(ts[n], id) then Some(ts[n])
      else
        var r := LastWith(ts[..n], id);
        assert forall l :: 0 <= l < n ==> ts[..n][l] == ts[l];
        r
  }

  /** Every column with the id's tasks filtered out: exactly the board's
      tasks with the id go, and none with it is left. */
  function Strip(b: Board, id: Value): (b': Board)
    ensures |b'| == |b|
    ensures forall k :: 0 <= k < |b| ==> b'[k] == b[k].(tasks := RemoveId(b[k].tasks, id))
    ensures TaskCount(b') == TaskCount(b) - CountId(b, id)
    ensures CountId(b', id) == 0
    decreases |b|
  {
    if b == [] then []
    else
      var c := b[0].(tasks := RemoveId(b[0].tasks, id));
      var rest := Strip(b[1..], id);
      assert ([c] + rest)[1..] == rest;
      assert forall k :: 1 <= k < |b| ==> b[1..][k - 1] == b[k];
      [c] + rest
  }

  /** Every column whose id is `name` with `t` appended: one task more
      per such column, the others unchanged. */
  function AppendWhere(b: Board, name: string, t: Task): (b': Board)
    ensures |b'| == |b|
    ensures forall k :: 0 <= k < |b| ==>
              b'[k] == if b[k].id == name then b[k].(tasks := b[k].tasks + [t]) else b[k]
    ensures TaskCount(b') == TaskCount(b) + Named(b, name)
    decreases |b|
  {
    if b == [] then []
    else
      var c := if b[0].id == name then b[0].(tasks := b[0].tasks + [t]) else b[0];
      var rest := AppendWhere(b[1..], name, t);
      assert ([c] + rest)[1..] == rest;
      assert forall k :: 1 <= k < |b| ==> b[1..][k - 1] == b[k];
      [c] + rest
  }

  /** How many columns carry the id `name`. */
  function Named(b: Board, name: string): (n: nat)
    ensures n <= |b|
    ensures n == 0 <==> forall k :: 0 <= k < |b| ==> b[k].id != name
    decreases |b|
  {
    if b == [] then 0
    else
      var rest := Named(b[1..], name);
      assert forall k :: 1 <= k < |b| ==> b[1..][k - 1] == b[k];
      (if b[0].id == name then 1 else 0) + rest
  }

  /** `handleDrop(e, target)` with `dragged` the dragged task's id (`None`
      for null). An empty or missing id, or one no task has, leaves the
      board as it was; otherwise every task with the id leaves its column
      and the last of them, stamped with today's date, joins every column
      whose id is the target's name. */
  function Drop(prev: Board, dragged: Option<string>, target: ColumnId, today: string): (b: Board)
    ensures dragged.None? || dragged.value == [] || !OnBoard(prev, Str(dragged.value)) ==> b == prev
    ensures |b| == |prev|
    ensures forall k :: 0 <= k < |prev| ==> b[k].id == prev[k].id && b[k].title == prev[k].title && b[k].emoji == prev[k].emoji
  {
    if dragged.None? || dragged.value == [] then prev
    else
      var id := Str(dragged.value);
      OnBoardAllTasks(prev, id);
      match LastWith(AllTasks(prev), id)
      case None => prev
      case Some(t) => AppendWhere(Strip(prev, id), target.Name(), Touch(t, today))
  }

  /** The task a drop of `id` carries: the last one with the id. */
  lemma {:induction false} DroppedTask(prev: Board, id: string)
    requires id != [] && OnBoard(prev, Str(id))
    ensures LastWith(AllTasks(prev), Str(id)).Some?
    ensures HasId(LastWith(AllTasks(prev), Str(id)).value, Str(id))
  {
    OnBoardAllTasks(prev, Str(id));
  }

  /** Where a drop puts things: every column loses its tasks with the id,
      and each column named like the target ends with the carried task,
      the last one with the id, all its fields kept and `updatedAt` set to
      today. */
  lemma {:induction false} DropMovesTask(prev: Board, id: string, target: ColumnId, today: string)
    requires id != [] && OnBoard(prev, Str(id))
    ensures LastWith(AllTasks(prev), Str(id)).Some?
    ensures var b := Drop(prev, Some(id), target, today);
            var t := Touch(LastWith(AllTasks(prev), Str(id)).value, today);
            forall k :: 0 <= k < |prev| ==>
              b[k].tasks == RemoveId(prev[k].tasks, Str(id)) + (if prev[k].id == target.Name() then [t] else [])
  {
    var key := Str(id);
    OnBoardAllTasks(prev, key);
    var t := Touch(LastWith(AllTasks(prev), key).value, today);
    var b := AppendWhere(Strip(prev, key), target.Name(), t);
    assert Drop(prev, Some(id), target, today) == b;
    forall k | 0 <= k < |prev|
      ensures b[k].tasks == RemoveId(prev[k].tasks, key) + (if prev[k].id == target.Name() then [t] else [])
    {
      if prev[k].id != target.Name() {
        assert RemoveId(prev[k].tasks, key) + [] == RemoveId(prev[k].tasks, key);
      }
    }
  }

  /** Only tasks with the dragged id move: in every column the other tasks
      are exactly the ones that were there, in order. */
  lemma {:induction false} DropKeepsOthers(prev: Board, id: string, target: ColumnId, today: string)
    requires id != []
    ensures var b := Drop(prev, Some(id), target, today);
            forall k :: 0 <= k < |prev| ==> RemoveId(b[k].tasks, Str(id)) == RemoveId(prev[k].tasks, Str(id))
  {
    var b := Drop(prev, Some(id), target, today);
    OnBoardAllTasks(prev, Str(id));
    if OnBoard(prev, Str(id)) {
      var t := Touch(LastWith(AllTasks(prev), Str(id)).value, today);
      forall k | 0 <= k < |prev|
        ensures RemoveId(b[k].tasks, Str(id)) == RemoveId(prev[k].tasks, Str(id))
      {
        RemoveIdIdempotent(prev[k].tasks, Str(id));
        if prev[k].id == target.Name() {
          AppendMatching(RemoveId(prev[k].tasks, Str(id)), t, Str(id));
        }
      }
    }
  }

  /** The count after a drop: every task with the id is removed and one is
      added to each column named like the target. */
  lemma {:induction false} DropCounts(prev: Board, id: string, target: ColumnId, today: string)
    requires id != [] && OnBoard(prev, Str(id))
    ensures var b := Drop(prev, Some(id), target, today);
            && TaskCount(b) == TaskCount(prev) - CountId(prev, Str(id)) + Named(prev, target.Name())
            && CountId(b, Str(id)) == Named(prev, target.Name())
  {
    var key := Str(id);
    var name := target.Name();
    OnBoardAllTasks(prev, key);
    var x := LastWith(AllTasks(prev), key).value;
    var t := Touch(x, today);
    assert HasId(t, key);
    var stripped := Strip(prev, key);
    assert Drop(prev, Some(id), target, today) == AppendWhere(stripped, name, t);
    AppendWhereCounts(stripped, name, t, key);
    NamedSameIds(prev, stripped, name);
  }

  /** With the dragged id on a single task, the one at (i, j), every
      column named like the target ends with that task stamped today. */
  lemma {:induction false} DropLandsLast(prev: Board, id: string, target: ColumnId, today: string, ci: nat, i: nat, j: nat)
    requires id != [] && CountId(prev, Str(id)) == 1
    requires i < |prev| && j < |prev[i].tasks| && HasId(prev[i].tasks[j], Str(id))
    requires ci < |prev| && prev[ci].id == target.Name()
    ensures var b := Drop(prev, Some(id), target, today);
            && |b[ci].tasks| >= 1
            && b[ci].tasks[|b[ci].tasks| - 1] == Touch(prev[i].tasks[j], today)
  {
    DropOfUnique(prev, id, target, today, i, j);
    AppendWhereLast(Strip(prev, Str(id)), target.Name(), Touch(prev[i].tasks[j], today), ci);
  }

  /** Helper: a column named like the target ends with the appended task. */
  lemma AppendWhereLast(b: Board, name: string, t: Task, ci: nat)
    requires ci < |b| && b[ci].id == name
    ensures |AppendWhere(b, name, t)[ci].tasks| >= 1
    ensures AppendWhere(b, name, t)[ci].tasks[|AppendWhere(b, name, t)[ci].tasks| - 1] == t
  {
  }

  /** With the dragged id on a single task, a drop strips the id and
      appends that task, stamped, to the columns named like the target. */
  lemma {:induction false} DropOfUnique(prev: Board, id: string, target: ColumnId, today: string, i: nat, j: nat)
    requires id != [] && CountId(prev, Str(id)) == 1
    requires i < |prev| && j < |prev[i].tasks| && HasId(prev[i].tasks[j], Str(id))
    ensures Drop(prev, Some(id), target, today)
            == AppendWhere(Strip(prev, Str(id)), target.Name(), Touch(prev[i].tasks[j], today))
  {
    UniqueTaskCarried(prev, Str(id), i, j);
  }

  /** With a single column named like the target and the dragged id on a
      single task, the one at (i, j), a drop keeps every task: the count is
      unchanged and the id is held once, by the target column's last task,
      which is that task stamped today. */
  lemma {:induction false} DropUniqueTask(prev: Board, id: string, target: ColumnId, today: string, ci: nat, i: nat, j: nat)
    requires id != [] && CountId(prev, Str(id)) == 1
    requires i < |prev| && j < |prev[i].tasks| && HasId(prev[i].tasks[j], Str(id))
    requires ci < |prev| && prev[ci].id == target.Name() && Named(prev, target.Name()) == 1
    ensures var b := Drop(prev, Some(id), target, today);
            && TaskCount(b) == TaskCount(prev)
            && CountId(b, Str(id)) == 1
            && |b[ci].tasks| >= 1
            && b[ci].tasks[|b[ci].tasks| - 1] == Touch(prev[i].tasks[j], today)
    ensures var b := Drop(prev, Some(id), target, today);
            var last := b[ci].tasks[|b[ci].tasks| - 1];
            HasId(last, Str(id)) && StampedOn(last, today)
  {
    DropCounts(prev, id, target, today);
    DropLandsLast(prev, id, target, today, ci, i, j);
  }

  /** Dropping on a target no column is named like loses the task: every
      task with the id is gone from the board. */
  lemma {:induction false} DropOnMissingColumnLosesTask(prev: Board, id: string, target: ColumnId, today: string)
    requires id != [] && OnBoard(prev, Str(id))
    requires forall k :: 0 <= k < |prev| ==> prev[k].id != target.Name()
    ensures !OnBoard(Drop(prev, Some(id), target, today), Str(id))
    ensures TaskCount(Drop(prev, Some(id), target, today)) == TaskCount(prev) - CountId(prev, Str(id))
  {
    DropCounts(prev, id, target, today);
  }

  /** Some task of the board has the id exactly when some task of the
      flattened board has it. */
  lemma {:induction false} OnBoardAllTasks(b: Board, id: Value)
    ensures OnBoard(b, id) <==> Holds(AllTasks(b), id)
    decreases |b|
  {
    if b != [] {
      OnBoardAllTasks(b[1..], id);
      OnBoardCons(b, id);
      HoldsConcat(b[0].tasks, AllTasks(b[1..]), id);
    }
  }

  /** On a board holding the id once, a drop carries the task holding it. */
  lemma {:induction false} UniqueTaskCarried(b: Board, id: Value, i: nat, j: nat)
    requires i < |b| && j < |b[i].tasks| && HasId(b[i].tasks[j], id) && CountId(b, id) == 1
    ensures LastWith(AllTasks(b), id) == Some(b[i].tasks[j])
  {
    OnBoardAllTasks(b, id);
    OnlyHolder(b, id, i, j);
    assert LastWith(AllTasks(b), id).value in AllTasks(b);
  }

  /** On a board holding the id once, the task at a place holding it is
      the only task of the flattened board with the id. */
  lemma {:induction false} OnlyHolder(b: Board, id: Value, i: nat, j: nat)
    requires i < |b| && j < |b[i].tasks| && HasId(b[i].tasks[j], id) && CountId(b, id) == 1
    ensures forall t :: t in AllTasks(b) && HasId(t, id) ==> t == b[i].tasks[j]
    decreases |b|
  {
    var head, rest := b[0].tasks, b[1..];
    assert AllTasks(b) == head + AllTasks(rest);
    assert CountId(b, id) == Matches(head, id) + CountId(rest, id);
    OnBoardAllTasks(rest, id);
    if i == 0 {
      assert Holds(head, id);
      MatchesOneUnique(head, j, id);
      forall t | t in AllTasks(rest) ensures !HasId(t, id) {
        var k :| 0 <= k < |AllTasks(rest)| && AllTasks(rest)[k] == t;
      }
      forall t | t in AllTasks(b) && HasId(t, id) ensures t == b[i].tasks[j] {
        assert t in head;
        var k :| 0 <= k < |head| && head[k] == t;
      }
    } else {
      assert rest[i - 1] == b[i];
      assert Holds(rest[i - 1].tasks, id);
      OnlyHolder(rest, id, i - 1, j);
      forall t | t in head ensures !HasId(t, id) {
        var k :| 0 <= k < |head| && head[k] == t;
      }
    }
  }

  lemma HoldsConcat(a: seq<Task>, c: seq<Task>, id: Value)
    ensures Holds(a + c, id) <==> Holds(a, id) || Holds(c, id)
  {
    if Holds(a + c, id) {
      var l :| 0 <= l < |a + c| && HasId((a + c)[l], id);
      if l < |a| {
        assert (a + c)[l] == a[l];
      } else {
        assert (a + c)[l] == c[l - |a|];
      }
    }
    if Holds(a, id) {
      var l :| 0 <= l < |a| && HasId(a[l], id);
      assert (a + c)[l] == a[l];
    }
    if Holds(c, id) {
      var l :| 0 <= l < |c| && HasId(c[l], id);
      assert (a + c)[|a| + l] == c[l];
    }
  }

  /** Appending a task with the id adds one match per named column. */
  lemma {:induction false} AppendWhereCounts(b: Board, name: string, t: Task, id: Value)
    requires HasId(t, id)
    ensures CountId(AppendWhere(b, name, t), id) == CountId(b, id) + Named(b, name)
    decreases |b|
  {
    if b != [] {
      var a := AppendWhere(b, name, t);
      assert a[1..] == AppendWhere(b[1..], name, t);
      AppendWhereCounts(b[1..], name, t, id);
      if b[0].id == name {
        AppendMatching(b[0].tasks, t, id);
        assert a[0].tasks == b[0].tasks + [t];
      } else {
        assert a[0] == b[0];
      }
    }
  }

  lemma {:induction false} NamedSameIds(b: Board, c: Board, name: string)
    requires |b| == |c| && forall k :: 0 <= k < |b| ==> c[k].id == b[k].id
    ensures Named(c, name) == Named(b, name)
    decreases |b|
  {
    if b != [] {
      NamedSameIds(b[1..], c[1..], name);
    }
  }

  // -----------------------------------------------------------------------
  // Header counters

  /** `columns.find(c => c.id === name)?.tasks.length || 0`. */
  function ColumnSize(b: Board, name: string): (n: nat)
    ensures FindColumn(b, Str(name)).None? ==> n == 0
    ensures FindColumn(b, Str(name)).Some? ==> n == |b[FindColumn(b, Str(name)).value].tasks|
  {
    match FindColumn(b, Str(name))
    case None => 0
    case Some(i) => |b[i].tasks|
  }

  datatype Counters = Counters(total: nat, completed: nat, inProgress: nat)

  /** The header's three numbers: all tasks, those in the `complete`
      column and those in the `in-progress` column. The two columns are
      different, so together they never exceed the total. */
  function HeaderCounters(b: Board): (c: Counters)
    ensures c.total == TaskCount(b)
    ensures c.completed == ColumnSize(b, Complete.Name()) && c.inProgress == ColumnSize(b, InProgress.Name())
    ensures c.completed + c.inProgress <= c.total
  {
    CountersWithinTotal(b);
    Counters(TaskCount(b), ColumnSize(b, Complete.Name()), ColumnSize(b, InProgress.Name()))
  }

  lemma CountersWithinTotal(b: Board)
    ensures ColumnSize(b, Complete.Name()) + ColumnSize(b, InProgress.Name()) <= TaskCount(b)
  {
    var done := FindColumn(b, Str(Complete.Name()));
    var active := FindColumn(b, Str(InProgress.Name()));
    if done.Some? && active.Some? {
      TwoColumnsWithinCount(b, done.value, active.value);
    } else if done.Some? {
      ColumnWithinCount(b, done.value);
    } else if active.Some? {
      ColumnWithinCount(b, active.value);
    }
  }
}

=== FILE: login.dfy ===
/** The login endpoint (app/api/auth/login/route.ts): client identification,
    the per-client fixed-window limiter on failed attempts, and the request
    handler as a transition over (rate table, session table).

    `now` is the request's clock reading, `token` the random value a
    successful login would mint, and `compare` the bcrypt oracle. */
module Login {
  import opened Wrappers
  import opened Json
  import JsString
  import Http
  import Auth

  /** Attempts allowed per window before requests are refused. */
  const MAX_ATTEMPTS: int := 5

  /** Window length: 15 minutes in milliseconds. */
  const WINDOW_MS: int := 15 * 60 * 1000

  const UNKNOWN_CLIENT: string := "unknown"

  datatype RateRecord = RateRecord(count: int, resetAt: int)

  /** Client identifier to its current window. */
  type RateTable = map<string, RateRecord>

  // -----------------------------------------------------------------------
  // Client identification

  /** The first comma-separated field of a header value: the text before
      the first comma, or all of it when there is none. */
  function FirstField(f: string): (p: string)
    ensures JsString.StartsWith(f, p) && ',' !in p
    ensures |p| < |f| ==> f[|p|] == ','
  {
    JsString.SplitFirstPiece(f, ',');
    JsString.Split(f, ',')[0]
  }

  /** `getClientIP`: the trimmed first field of `x-forwarded-for` if that is
      non-empty, else `x-real-ip` if non-empty, else `"unknown"`. */
  function ClientIp(h: Http.Headers): (ip: string)
    ensures ip != []
    ensures h.forwardedFor.Some? && JsString.Trim(FirstField(h.forwardedFor.value)) != []
            ==> ip == JsString.Trim(FirstField(h.forwardedFor.value)) && ',' !in ip && JsString.IsTrimmed(ip)
    ensures (h.forwardedFor.None? || JsString.Trim(FirstField(h.forwardedFor.value)) == [])
            ==> ip == (if h.realIp.Some? && h.realIp.value != [] then h.realIp.value else UNKNOWN_CLIENT)
  {
    var forwarded := if h.forwardedFor.Some? then JsString.Trim(FirstField(h.forwardedFor.value)) else [];
    if forwarded != [] then
      assert ',' !in forwarded by {
        JsString.TrimInfix(FirstField(h.forwardedFor.value));
      }
      forwarded
    else if h.realIp.Some? && h.realIp.value != [] then h.realIp.value
    else UNKNOWN_CLIENT
  }

  // -----------------------------------------------------------------------
  // Rate limiting

  /** `isRateLimited`: a record that is absent or whose window ended before
      `now` never limits; a live one limits once it holds five attempts.
      Put the other way: a client is limited exactly when one more attempt
      would stay in its current window and take it past the maximum. */
  function IsRateLimited(t: RateTable, ip: string, now: int): (limited: bool)
    ensures limited ==> ip in t && t[ip].count >= MAX_ATTEMPTS
    ensures limited <==> ip in t && RecordAttempt(t, ip, now)[ip].resetAt == t[ip].resetAt
                                 && RecordAttempt(t, ip, now)[ip].count > MAX_ATTEMPTS
  {
    ip in t && t[ip].resetAt >= now && t[ip].count >= MAX_ATTEMPTS
  }

  /** `recordAttempt`: opens a fresh window holding one attempt when there
      is no live record, else counts one more attempt in the live window.
      No other client's record is touched. */
  function RecordAttempt(t: RateTable, ip: string, now: int): (t': RateTable)
    ensures ip in t'
    ensures (ip !in t || t[ip].resetAt < now) ==> t'[ip] == RateRecord(1, now + WINDOW_MS)
    ensures ip in t && t[ip].resetAt >= now ==> t'[ip] == RateRecord(t[ip].count + 1, t[ip].resetAt)
    ensures forall k :: k != ip && k in t ==> k in t' && t'[k] == t[k]
    ensures forall k :: k in t' ==> k == ip || k in t
  {
    if ip !in t || t[ip].resetAt < now then t[ip := RateRecord(1, now + WINDOW_MS)]
    else t[ip := t[ip].(count := t[ip].count + 1)]
  }

  /** The table after recording one attempt at each of the given times, in
      order. */
  function RecordAll(t: RateTable, ip: string, times: seq<int>): RateTable
    decreases |times|
  {
    if times == [] then t
    else RecordAttempt(RecordAll(t, ip, times[..|times| - 1]), ip, times[|times| - 1])
  }

  /** Attempts made while the window opened by the first one is still
      running all land in that window. */
  lemma {:induction false} AttemptsShareWindow(t: RateTable, ip: string, times: seq<int>)
    requires |times| >= 1
    requires ip !in t || t[ip].resetAt < times[0]
    requires forall i :: 0 <= i < |times| ==> times[i] <= times[0] + WINDOW_MS
    ensures ip in RecordAll(t, ip, times)
    ensures RecordAll(t, ip, times)[ip] == RateRecord(|times|, times[0] + WINDOW_MS)
    decreases |times|
  {
    if |times| > 1 {
      var prefix := times[..|times| - 1];
      assert prefix[0] == times[0];
      AttemptsShareWindow(t, ip, prefix);
    }
  }

  /** Threshold counting: within one window, the client becomes limited
      exactly when five attempts have been recorded (four are not enough). */
  lemma LimitedAfterFive(t: RateTable, ip: string, times: seq<int>, now: int)
    requires |times| >= 1
    requires ip !in t || t[ip].resetAt < times[0]
    requires forall i :: 0 <= i < |times| ==> times[i] <= times[0] + WINDOW_MS
    requires now <= times[0] + WINDOW_MS
    ensures IsRateLimited(RecordAll(t, ip, times), ip, now) <==> |times| >= MAX_ATTEMPTS
  {
    AttemptsShareWindow(t, ip, times);
  }

  /** Once the window has ended the client is no longer limited, and the
      next attempt opens a fresh window holding one attempt. */
  lemma WindowExpiry(t: RateTable, ip: string, now: int)
    requires ip in t && t[ip].resetAt < now
    ensures !IsRateLimited(t, ip, now)
    ensures RecordAttempt(t, ip, now)[ip] == RateRecord(1, now + WINDOW_MS)
    ensures !IsRateLimited(RecordAttempt(t, ip, now), ip, now)
  {
  }

  // -----------------------------------------------------------------------
  // The request handler

  datatype Reply =
    | TooManyAttempts
    | PasswordRequired
    | InvalidPassword
    | InvalidRequest
    | LoggedIn(token: string, expiresIn: int)
  {
    function Status(): int {
      match this
      case TooManyAttempts => 429
      case PasswordRequired => 400
      case InvalidPassword => 401
      case InvalidRequest => 400
      case LoggedIn(_, _) => 200
    }
  }

  /** The limiter's and the session store's state between requests. */
  datatype State = State(rates: RateTable, sessions: Auth.Sessions)

  datatype Step = Step(reply: Reply, state: State)

  /** The body's `password` when it is a non-empty string; a body of
      `null` cannot be destructured and is excluded. */
  function PasswordText(v: Value): (p: Option<string>)
    requires !v.Null?
    ensures p.Some? <==> Member(v, "password").Some? && Member(v, "password").value.Str? && Member(v, "password").value.s != []
    ensures p.Some? ==> Member(v, "password") == Some(Str(p.value))
  {
    var field := Member(v, "password");
    if field.Some? && Truthy(field.value) && field.value.Str? then Some(field.value.s) else None
  }

  /** The outcome a request would have once it is past the limiter: the
      password it carries, if any. `None` for a body that failed to parse or
      could not be destructured. */
  function SubmittedPassword(body: Http.Body): (r: Option<Option<string>>)
    ensures r.None? <==> body.Malformed? || body.value.Null?
    ensures r.Some? && r.value.Some? ==>
              && body.value.Obj? && "password" in body.value.fields
              && body.value.fields["password"] == Str(r.value.value) && r.value.value != []
  {
    match body
    case Malformed => None
    case Parsed(v) => if v.Null? then None else Some(PasswordText(v))
  }

  /** `POST /api/auth/login`. */
  function Post(cfg: Auth.Config, st: State, h: Http.Headers, body: Http.Body,
                now: int, token: string, compare: Auth.HashCompare): (r: Step)
    // A limited client is refused before anything else happens.
    ensures IsRateLimited(st.rates, ClientIp(h), now) ==> r == Step(TooManyAttempts, st)
    // An unparseable body is a bad request that records nothing.
    ensures !IsRateLimited(st.rates, ClientIp(h), now) && SubmittedPassword(body).None?
            ==> r == Step(InvalidRequest, st)
    // A missing, non-string or empty password records exactly one attempt.
    ensures !IsRateLimited(st.rates, ClientIp(h), now) && SubmittedPassword(body) == Some(None)
            ==> r == Step(PasswordRequired, st.(rates := RecordAttempt(st.rates, ClientIp(h), now)))
    // 429 is the answer exactly for a limited client.
    ensures r.reply == TooManyAttempts <==> IsRateLimited(st.rates, ClientIp(h), now)
    // A wrong password is answered 401 and records exactly one attempt.
    ensures !IsRateLimited(st.rates, ClientIp(h), now) && WrongPassword(cfg, body, compare)
            ==> r == Step(InvalidPassword, st.(rates := RecordAttempt(st.rates, ClientIp(h), now)))
    ensures r.reply == InvalidPassword
            ==> r.state == st.(rates := RecordAttempt(st.rates, ClientIp(h), now))
    // Success: a new 24-hour session, and the limiter is left alone.
    ensures r.reply.LoggedIn? <==>
              && !IsRateLimited(st.rates, ClientIp(h), now)
              && SubmittedPassword(body).Some? && SubmittedPassword(body).value.Some?
              && Auth.VerifyPassword(cfg, SubmittedPassword(body).value.value, compare)
    ensures r.reply.LoggedIn? ==>
              && r.reply == LoggedIn(token, 86_400_000)
              && r.state == State(st.rates, Auth.CreateSession(st.sessions, token, now))
    // Only the limiter's record for this client and the new session can change.
    ensures r.state.rates == st.rates || r.state.rates == RecordAttempt(st.rates, ClientIp(h), now)
    ensures r.state.sessions == st.sessions || r.reply.LoggedIn?
  {
    var ip := ClientIp(h);
    if IsRateLimited(st.rates, ip, now) then Step(TooManyAttempts, st)
    else
      match body
      case Malformed => Step(InvalidRequest, st)
      case Parsed(v) =>
        if v.Null? then Step(InvalidRequest, st)
        else
          var password := PasswordText(v);
          if password.None? then
            Step(PasswordRequired, st.(rates := RecordAttempt(st.rates, ip, now)))
          else if !Auth.VerifyPassword(cfg, password.value, compare) then
            Step(InvalidPassword, st.(rates := RecordAttempt(st.rates, ip, now)))
          else
            Step(LoggedIn(token, Auth.SESSION_TTL_MS),
                 st.(sessions := Auth.CreateSession(st.sessions, token, now)))
  }

  /** A refused request does not consult the password oracle or look at the
      body: its outcome is the same whatever they are. */
  lemma LimitedIgnoresPassword(cfg: Auth.Config, st: State, h: Http.Headers,
                               b1: Http.Body, b2: Http.Body, now: int, token: string,
                               c1: Auth.HashCompare, c2: Auth.HashCompare)
    requires IsRateLimited(st.rates, ClientIp(h), now)
    ensures Post(cfg, st, h, b1, now, token, c1) == Post(cfg, st, h, b2, now, token, c2)
    ensures Post(cfg, st, h, b1, now, token, c1).reply.Status() == 429
  {
  }

  /** The same request replayed at each of the given times. */
  function Replay(cfg: Auth.Config, st: State, h: Http.Headers, body: Http.Body,
                  times: seq<int>, token: string, compare: Auth.HashCompare): State
    decreases |times|
  {
    if times == [] then st
    else Post(cfg, Replay(cfg, st, h, body, times[..|times| - 1], token, compare),
              h, body, times[|times| - 1], token, compare).state
  }

  /** A body carrying a non-empty password the oracle rejects. */
  predicate WrongPassword(cfg: Auth.Config, body: Http.Body, compare: Auth.HashCompare) {
    && SubmittedPassword(body).Some? && SubmittedPassword(body).value.Some?
    && !Auth.VerifyPassword(cfg, SubmittedPassword(body).value.value, compare)
  }

  /** Up to five wrong passwords inside one window are each answered 401
      and each counted once. The lemma speaks of the last request; applied
      to every prefix of `times` it covers each of them. */
  lemma {:induction false} FailuresAreCounted(cfg: Auth.Config, st: State, h: Http.Headers, body: Http.Body,
                                              times: seq<int>, token: string, compare: Auth.HashCompare)
    requires WrongPassword(cfg, body, compare)
    requires 1 <= |times| <= MAX_ATTEMPTS
    requires ClientIp(h) !in st.rates || st.rates[ClientIp(h)].resetAt < times[0]
    requires forall i :: 0 <= i < |times| ==> times[i] <= times[0] + WINDOW_MS
    ensures Replay(cfg, st, h, body, times, token, compare)
            == st.(rates := RecordAll(st.rates, ClientIp(h), times))
    ensures Post(cfg, Replay(cfg, st, h, body, times[..|times| - 1], token, compare),
                 h, body, times[|times| - 1], token, compare).reply == InvalidPassword
    decreases |times|
  {
    var ip := ClientIp(h);
    var n := |times|;
    var prefix := times[..n - 1];
    if n > 1 {
      assert prefix[0] == times[0];
      FailuresAreCounted(cfg, st, h, body, prefix, token, compare);
      AttemptsShareWindow(st.rates, ip, prefix);
    }
    var before := Replay(cfg, st, h, body, prefix, token, compare);
    assert before == st.(rates := RecordAll(st.rates, ip, prefix));
    assert !IsRateLimited(before.rates, ip, times[n - 1]);
  }

  /** Five wrong passwords inside one window make the sixth request from
      the same client a 429, whatever password it carries. */
  lemma SixthRequestRefused(cfg: Auth.Config, st: State, h: Http.Headers, body: Http.Body,
                            times: seq<int>, token: string, compare: Auth.HashCompare,
                            next: Http.Body, now: int)
    requires WrongPassword(cfg, body, compare)
    requires |times| == MAX_ATTEMPTS
    requires ClientIp(h) !in st.rates || st.rates[ClientIp(h)].resetAt < times[0]
    requires forall i :: 0 <= i < |times| ==> times[i] <= times[0] + WINDOW_MS
    requires now <= times[0] + WINDOW_MS
    ensures Post(cfg, Replay(cfg, st, h, body, times, token, compare), h, next, now, token, compare).reply
            == TooManyAttempts
  {
    FailuresAreCounted(cfg, st, h, body, times, token, compare);
    LimitedAfterFive(st.rates, ClientIp(h), times, now);
  }

  /** End to end: the token of a successful login authorizes a request that
      presents it in `X-Session-Token` until the session expires. */
  lemma LoginThenAuthorized(cfg: Auth.Config, st: State, h: Http.Headers, body: Http.Body,
                            now: int, token: string, compare: Auth.HashCompare,
                            request: Http.Headers, later: int)
    requires Post(cfg, st, h, body, now, token, compare).reply.LoggedIn?
    requires token != [] && request.sessionToken == Some(token)
    requires now <= later <= now + Auth.SESSION_TTL_MS
    ensures Auth.IsAuthorized(cfg, Post(cfg, st, h, body, now, token, compare).state.sessions, request, later).valid
  {
  }
}

=== FILE: seqs.dfy ===
/** Facts about sequences used by several modules. */
module Seqs {
  /** Concatenation is associative; stated once so that proofs can cite
      it instead of rediscovering it through extensionality. */
  lemma Assoc<T>(a: seq<T>, b: seq<T>, c: seq<T>)
    ensures a + (b + c) == a + b + c
  {
  }
}

=== FILE: types.dfy ===
/** The board's vocabulary (lib/types.ts): priorities, the five columns,
    their display configuration, and the shapes of tasks and columns. */
module Types {
  import opened Wrappers
  import opened Json

  datatype Priority = High | Medium | Low {
    /** The string the type's literal union uses. */
    function Name(): string {
      match this
      case High => "high"
      case Medium => "medium"
      case Low => "low"
    }
  }

  /** The priority a string denotes, if any. */
  function PriorityNamed(s: string): (p: Option<Priority>)
    ensures p.Some? <==> s in {"high", "medium", "low"}
    ensures p.Some? ==> p.value.Name() == s
  {
    if s == "high" then Some(High)
    else if s == "medium" then Some(Medium)
    else if s == "low" then Some(Low)
    else None
  }

  datatype ColumnId = Backlog | Requirements | InProgress | Review | Complete {
    function Name(): string {
      match this
      case Backlog => "backlog"
      case Requirements => "requirements"
      case InProgress => "in-progress"
      case Review => "review"
      case Complete => "complete"
    }
  }

  /** The column id a string denotes, if any. */
  function ColumnIdNamed(s: string): (c: Option<ColumnId>)
    ensures c.Some? <==> s in {"backlog", "requirements", "in-progress", "review", "complete"}
    ensures c.Some? ==> c.value.Name() == s
  {
    if s == "backlog" then Some(Backlog)
    else if s == "requirements" then Some(Requirements)
    else if s == "in-progress" then Some(InProgress)
    else if s == "review" then Some(Review)
    else if s == "complete" then Some(Complete)
    else None
  }

  /** Every priority and every column id has its own name, and reading the
      name back gives the value: the unions have exactly three and exactly
      five members. */
  lemma NamesRoundTrip(p: Priority, c: ColumnId)
    ensures PriorityNamed(p.Name()) == Some(p)
    ensures ColumnIdNamed(c.Name()) == Some(c)
  {
  }

  datatype ColumnConfig = ColumnConfig(id: ColumnId, title: string, emoji: string)

  const COLUMN_CONFIG: seq<ColumnConfig> := [
    ColumnConfig(Backlog, "Backlog", "\U{1F4CB}"),
    ColumnConfig(Requirements, "Requirements", "\U{1F4DD}"),
    ColumnConfig(InProgress, "In Progress", "\U{26A1}"),
    ColumnConfig(Review, "Review", "\U{1F50D}"),
    ColumnConfig(Complete, "Complete", "\U{2705}")
  ]

  const COLUMN_ORDER: seq<ColumnId> := [Backlog, Requirements, InProgress, Review, Complete]

  /** How many entries of a configuration list carry the given id. */
  function Occurrences(configs: seq<ColumnConfig>, c: ColumnId): nat
    decreases |configs|
  {
    if configs == [] then 0
    else (if configs[0].id == c then 1 else 0) + Occurrences(configs[1..], c)
  }

  /** `COLUMN_CONFIG` lists every column id exactly once, in the order of
      `COLUMN_ORDER`. */
  lemma ConfigMatchesOrder(c: ColumnId)
    ensures Occurrences(COLUMN_CONFIG, c) == 1
    ensures |COLUMN_CONFIG| == |COLUMN_ORDER|
    ensures forall i :: 0 <= i < |COLUMN_ORDER| ==> COLUMN_CONFIG[i].id == COLUMN_ORDER[i]
  {
    var cs := COLUMN_CONFIG;
    assert cs[1..][1..][1..][1..][1..] == [];
  }

  /** `configs.find(c => c.id === id)`. */
  function FindConfig(configs: seq<ColumnConfig>, id: string): (r: Option<ColumnConfig>)
    ensures r.Some? ==> r.value in configs && r.value.id.Name() == id
    ensures r.None? <==> forall i :: 0 <= i < |configs| ==> configs[i].id.Name() != id
    decreases |configs|
  {
    if configs == [] then None
    else if configs[0].id.Name() == id then Some(configs[0])
    else FindConfig(configs[1..], id)
  }

  /** The lookup behind the non-null assertion in the board's column
      rendering never fails for a column id. */
  lemma ConfigLookupTotal(c: ColumnId)
    ensures FindConfig(COLUMN_CONFIG, c.Name()) == Some(COLUMN_CONFIG[ColumnIndex(c)])
  {
  }

  /** A column id's position in `COLUMN_ORDER`. */
  function ColumnIndex(c: ColumnId): (i: nat)
    ensures i < |COLUMN_ORDER| && COLUMN_ORDER[i] == c
  {
    match c
    case Backlog => 0
    case Requirements => 1
    case InProgress => 2
    case Review => 3
    case Complete => 4
  }

  /** A task as the server routes and the board handle it: a JSON object
      (`id`, `title`, `description`, `priority`, `tags`, `createdAt`,
      `updatedAt` and optional extras), read and written loosely. */
  type Task = map<string, Value>

  /** A column of the board; the routes read `id` and `tasks`, and carry
      the title and emoji along unchanged. */
  datatype Column = Column(id: string, title: string, emoji: string, tasks: seq<Task>)

  type Board = seq<Column>

  /** `t.id === id`. */
  predicate HasId(t: Task, id: Value) {
    "id" in t && StrictEquals(t["id"], id)
  }
}

=== FILE: wrappers.dfy ===
/** The absent-or-present value used for JavaScript's `undefined`, `null`
    and "not found" results throughout the model. */
module Wrappers {
  datatype Option<+T> = None | Some(value: T) {
    /** JavaScript's `x ?? fallback`: the value when there is one. */
    function GetOr(default: T): T {
      match this
      case Some(v) => v
      case None => default
    }
  }
}
